=== FILE: README.md ===
# minjur exporters in Dafny

A Dafny model of the decision and serialisation logic in minjur's OpenStreetMap-to-GeoJSON
exporters:

- `minjur` (`JSONNoAreaHandler`) writes points and linestrings. It can also write polygons
  for closed ways whose tags name an area.
- `minjur-mp` (`JSONAreaHandler`) writes points, linestrings, and multipolygons for the
  areas osmium assembles.
- `minjur-generate-tilelist` (`TileDiffHandler`) lists the tiles a change file touches.

Each handler call is a pure function of the object it receives and of the handler's state.
libosmium and rapidjson are parameters of the model:

- the geometry factory driver and the area-id mapping;
- the Web-Mercator projection;
- the byte rendering of writer events.

## Structure

| file | module | models |
|---|---|---|
| wrappers.dfy | Wrappers | `Option` and `Result`, used for exceptions |
| decimal.dfy | Decimal | decimal text of integers (`std::to_string`, stream `<<`) and its reader |
| text.dfy | Text | character search, splitting at a separator, counting |
| osm.dfy | Osm | locations (fixed-point, with the invalid sentinel), tags, nodes, ways, relations, areas, the two geometry exceptions |
| tags_filter.dfy | TagsFilter | `osmium::tags::KeyValueFilter` with first-match semantics, and `match_any_of` |
| polygon_rules.dfy | PolygonRules | the area-rule table of the `JSONNoAreaHandler` constructor, as 23 key blocks |
| json_events.dfy | JsonEvents | the rapidjson writer as a stream of events, bracket balance, object members |
| geojson.dfy | GeoJson | `RapidGeoJSONFactoryImpl` events and the driver's callback order, with a decoder |
| json_feature.dfy | JsonFeature | `attribute_names`, `JSONFeature` (constructor, geometry, `add_id`, `add_properties`, `append_to`) |
| json_handler.dfy | JsonHandler | `JSONHandler`: buffer, flushed output, error counter and error log |
| exporter.dfy | Exporter | what both exporters share: the geometry factory, `create_point`, the id role |
| tile.dfy | TileIndex | `latlon2tile`: the pole overrides and the clamping |
| tilelist.dfy | TileList | `TileDiffHandler`: the dirty-tile set and `dump_tiles` |
| minjur.dfy | Minjur | `JSONNoAreaHandler`: the classifier, the tile filter, the node-id attribute, `node` and `way` |
| minjur_mp.dfy | MinjurMp | `JSONAreaHandler`: `node`, `way` and `area` |

### How one handler call is modelled

A handler call returns an `Emission`:

- `Skipped` is an early `return`. Nothing is written and `maybe_flush` is not reached.
- `Done(records, failure)` covers the rest of the call, in this order:
  1. the features that `append_to` added;
  2. the exception caught while building the next feature, if any;
  3. the final `maybe_flush`.

`JsonHandler.ApplyEmission` applies an emission to the shared state. Over a whole run,
`JsonHandler.RunOutput` shows two things:

- the flushed output is every record in input order;
- the error count grows by one per caught exception.

### Serialisation

Features are event streams (`JsonEvents.Event`). Every stream has a decoder, and the
proofs are round trips:

- the geometry of a feature decodes back to the geometry the factory was given;
- its properties decode back to the reserved members, the additions and the tags, in order;
- the error-log line decodes back to type letter, id and error name;
- the node-id attribute splits back into the node ids.

Turning events into bytes (`Renderer`) is a parameter. Number formatting and string
escaping are therefore not modelled.

### Behaviour of the classifier

A tag's verdict comes from the first rule, in declaration order, that matches it. A way is
a polygon when `match_any_of` finds one tag with a true verdict. So `area=no` on its own
makes a closed way a linestring, but it does not veto another tag: `area=no` together with
`building=yes` gives a polygon (`Minjur.AreaNoDoesNotVeto`). This is what `match_any_of`
at minjur.cpp:48 does.

## Model

| member | source | states |
|---|---|---|
| TagsFilter.NewFilter | minjur.cpp:63 | a filter built with only a default answers that default for every tag |
| TagsFilter.Add | minjur.cpp:65-67 | `add` appends one rule at the end and keeps the default; a tag an earlier rule already matches keeps its verdict |
| TagsFilter.FirstMatchFrom | minjur.cpp:48 | the rule found is the first one at or after the start position that matches the tag; "none" means no rule from there on matches |
| TagsFilter.Apply | minjur.cpp:48 | a tag's verdict is that of the first rule in declaration order whose key (and value, if given) match; with no match it is the filter's default |
| TagsFilter.MatchAnyOf | minjur.cpp:48 | `match_any_of` is true exactly when some tag of the list gets a true verdict |
| TagsFilter.FirstMatchWins | minjur.cpp:88-90 | rules added after one that matches a tag never change that tag's verdict, so value exceptions declared before the key-wide rule win |
| TagsFilter.SkipUnmatched | minjur.cpp:65-160 | rules that do not match a tag have no influence on its verdict |
| PolygonRules.BlockRulesShape | minjur.cpp:88-90 | each key's block is its value exceptions with verdict false, in order, followed by one key-wide rule with verdict true |
| PolygonRules.AddExceptionsAppends | minjur.cpp:65-66 | a run of `add(false, key, value)` calls appends exactly those rules, in call order |
| PolygonRules.AddBlocksAppends | minjur.cpp:63-160 | the constructor's sequence of `add` calls builds the filter whose rules are the blocks' rules in declaration order |
| PolygonRules.BlockRulesVerdict | minjur.cpp:88-90 | a block always matches a tag with its key, and says "area" exactly when the value is not one of its exceptions |
| PolygonRules.BlockRulesMiss | minjur.cpp:88-90 | a block matches no tag with a different key |
| PolygonRules.FlattenVerdict | minjur.cpp:63-160 | the first-match verdict of the whole table equals the block-wise reference verdict `BlockVerdict` |
| PolygonRules.AddedBlocksVerdict | minjur.cpp:63-160 | the filter the constructor builds gives every tag the block-wise reference verdict |
| PolygonRules.FlattenVerdicts | minjur.cpp:63-160 | the flat table and the block-wise reference agree on every tag |
| PolygonRules.KeyedBlockDecides | minjur.cpp:63-160 | the first block with the tag's key decides: "area" exactly when the value is not among its exceptions |
| PolygonRules.UnknownKeyFalse | minjur.cpp:63 | a key that no block names falls to the default, "not an area" |
| PolygonRules.BuildingNoIsNotArea | minjur.cpp:88-90 | `building=no` is not an area |
| PolygonRules.BuildingYesIsArea | minjur.cpp:88-90 | `building=yes` is an area |
| PolygonRules.CoastlineIsNotArea | minjur.cpp:125-132 | `natural=coastline` is not an area |
| PolygonRules.WoodIsArea | minjur.cpp:125-132 | `natural=wood` is an area |
| PolygonRules.AreaNoIsNotArea | minjur.cpp:83-84 | `area=no` is not an area |
| PolygonRules.HighwayIsNotArea | minjur.cpp:63-160 | no `highway` value is an area, since the table has no highway rule |
| JsonEvents.ToInt32 | json_feature.cpp:24 | `Writer::Int` narrows to a 32-bit signed value: the result is in range, congruent to the input modulo 2^32, and equal to it when it fits |
| JsonEvents.NestConcat | rapid_geojson.hpp:85-91 | the open brackets after two event runs are those after the first, carried through the second |
| JsonEvents.NestFrame | rapid_geojson.hpp:85-91 | an event run nests the same way inside any enclosing brackets |
| JsonEvents.BalancedConcat | rapid_geojson.hpp:85-107 | two balanced runs written one after the other are balanced |
| JsonEvents.BalancedScalars | json_feature.cpp:38-41 | a run of strings and numbers is balanced |
| JsonEvents.BalancedWrap | rapid_geojson.hpp:85-91 | a start/finish pair around a balanced run gives a balanced run |
| JsonEvents.MemberEvents | json_feature.cpp:38-41 | each member is written as its key string followed by its value, in order |
| JsonEvents.MemberEventsConcat | json_feature.cpp:9-41 | writing two member lists one after the other writes their concatenation |
| JsonEvents.DecodeMemberEvents | json_feature.cpp:38-41 | key/value events with scalar values read back as the same members, in order |
| JsonEvents.MemberEventsBalanced | json_feature.cpp:38-41 | members with scalar values are balanced |
| GeoJson.Positions | rapid_geojson.hpp:62-67 | the i-th added location is the i-th four-event `[x, y]` array |
| GeoJson.GeometryEvents | rapid_geojson.hpp:38-41 | every geometry starts with the key "geometry", an object and its type name, and ends by closing that object |
| GeoJson.ParsePositionsOf | rapid_geojson.hpp:62-67 | a run of added locations reads back as the same locations, in order |
| GeoJson.ParseRingOf | rapid_geojson.hpp:93-99 | a ring's start, locations and finish read back as the ring |
| GeoJson.ParseInnerRingsOf | rapid_geojson.hpp:101-107 | the inner rings read back as the same rings, in order |
| GeoJson.ParsePolygonOf | rapid_geojson.hpp:85-107 | one polygon (outer ring, then inner rings) reads back as that polygon |
| GeoJson.ParsePolygonsOf | rapid_geojson.hpp:85-91 | the polygons of a multipolygon read back as the same polygons, in order |
| GeoJson.DecodePointEvents | rapid_geojson.hpp:37-48 | the events `make_point` writes decode to the same point |
| GeoJson.DecodeLineStringEvents | rapid_geojson.hpp:53-72 | `linestring_start`, one add per location and `linestring_finish` decode to the same linestring; the point count is not used |
| GeoJson.DecodePolygonEvents | json_feature.hpp:67-69 | the polygon written for a way decodes to the same ring |
| GeoJson.DecodeMultiPolygonEvents | rapid_geojson.hpp:76-119 | the multipolygon callbacks, in the driver's order, decode to the same multipolygon |
| GeoJson.DecodeGeometryEvents | rapid_geojson.hpp:37-119 | the factory loses nothing: every geometry's events decode back to it |
| GeoJson.PositionBalanced | rapid_geojson.hpp:62-67 | one added location is balanced |
| GeoJson.PositionsBalanced | rapid_geojson.hpp:109-114 | any number of added locations is balanced |
| GeoJson.PositionArrayBalanced | rapid_geojson.hpp:93-99 | a ring (start, locations, finish) is balanced |
| GeoJson.InnerRingsBalanced | rapid_geojson.hpp:101-107 | any number of inner rings is balanced |
| GeoJson.PolygonRingsBalanced | rapid_geojson.hpp:85-107 | one polygon of a multipolygon is balanced |
| GeoJson.PolygonsBalanced | rapid_geojson.hpp:85-91 | any number of polygons is balanced |
| GeoJson.GeometryObjectBalanced | rapid_geojson.hpp:38-47 | `"geometry": {"type": t, "coordinates": body}` is balanced whenever body is |
| GeoJson.PointBalanced | rapid_geojson.hpp:37-48 | a point is balanced, with or without its key |
| GeoJson.LineStringBalanced | rapid_geojson.hpp:53-72 | a linestring is balanced, with or without its key |
| GeoJson.PolygonBalanced | json_feature.hpp:67-69 | a way's polygon is balanced, with or without its key |
| GeoJson.ArrayGeometryBalanced | rapid_geojson.hpp:76-83 | a geometry header, a balanced body and the closing array and object are balanced |
| GeoJson.MultiPolygonBalanced | rapid_geojson.hpp:76-119 | a multipolygon is balanced, with or without its key |
| GeoJson.GeometryBalanced | rapid_geojson.hpp:37-119 | every geometry is the key "geometry" followed by one balanced object |
| JsonFeature.AttributeNamesLayout | json_feature.hpp:25-33 | each attribute name is the prefix followed by its fixed suffix |
| JsonFeature.AttributeNamesEmptyPrefix | json_feature.hpp:26-32 | with an empty prefix the names are the bare suffixes |
| JsonFeature.AttributeNamesDistinct | json_feature.hpp:26-32 | the seven attribute names are pairwise distinct, for any prefix |
| JsonFeature.NewFeature | json_feature.hpp:49-57 | a fresh feature opens an object and holds exactly the member `"type": "Feature"` |
| JsonFeature.AddId | json_feature.hpp:75 | `add_id` keeps what was written and appends exactly one member "id", whose value is the role followed by the decimal id |
| JsonFeature.AddGeometry | json_feature.hpp:59-73 | the geometry calls keep what was written and append only events that decode to the given geometry |
| JsonFeature.StringMembers | json_feature.cpp:38-41 | each tag becomes one member with its key and its value as a string, in the given order |
| JsonFeature.PropertyMembersLayout | json_feature.cpp:9-41 | the seven reserved names come first in fixed order. The id is the area mapping for areas and the object id otherwise. The type is "way" or "relation" for areas and the item type name otherwise. The 32-bit fields follow, then the additions, then every tag in order, with no deduplication |
| JsonFeature.PropertyMembersScalar | json_feature.cpp:9-41 | every property value is a string or a number |
| JsonFeature.DecodePropertiesOf | json_feature.cpp:4-43 | the key "properties" and one object holding the members read back as those members |
| JsonFeature.AddProperties | json_feature.cpp:4-43 | `add_properties` keeps what was written and appends events that read back as the property members |
| JsonFeature.AppendTo | json_feature.cpp:45-50 | the buffer is kept as a prefix; the appended text is the closed feature followed by one newline, the only newline when the rendering has none |
| JsonFeature.FeatureEventsByBuilder | minjur-mp.cpp:44-50 | constructor, optional `add_id`, geometry and `add_properties`, then closing the object, give the feature's event stream |
| JsonFeature.RecordByAppendTo | minjur-mp.cpp:44-50 | appending a feature built that way adds exactly its record to the buffer |
| JsonFeature.PropertiesBalanced | json_feature.cpp:4-43 | the properties object is opened and closed exactly once, so it is balanced |
| JsonFeature.FeaturePrefixBalanced | json_feature.hpp:54-56 | the feature object with balanced geometry and properties is balanced |
| JsonFeature.FeatureBalanced | json_feature.cpp:45-50 | every closed feature is balanced |
| JsonFeature.FeatureEventsLayout | json_feature.hpp:54-56 | a feature starts with `{"type": "Feature"` and ends by closing the object; its geometry part decodes to the geometry and its properties part to the members |
| JsonHandler.Create | json_handler.hpp:43-52 | a new handler has nothing written and no errors; it has an error log exactly when an error file is named; its attribute names are the prefixed suffixes; it keeps the id flag and the node attribute it was given |
| JsonHandler.FlushToOutput | json_handler.cpp:9-13 | the whole buffer moves to the output, in order, and the buffer empties; the error count, the log and the configuration stay as they were |
| JsonHandler.MaybeFlush | json_handler.hpp:35-39 | flushes exactly when the buffer holds more than 1048576 bytes (one character of the model's text stands for one byte); afterwards it holds at most that many; nothing written is lost |
| JsonHandler.Close | json_handler.hpp:54-56 | the destructor flushes unconditionally: the output is everything ever written |
| JsonHandler.ReportGeometryProblem | json_handler.cpp:15-20 | the count grows by exactly one; with a log, one line is appended that reads back as type letter, id and error name; the buffer, the output and the configuration stay as they were |
| JsonHandler.ParseErrorLineOf | json_handler.cpp:18 | `<type letter><id>:<error>` followed by a newline reads back as those three fields |
| JsonHandler.AppendAll | json_feature.cpp:48-49 | appending records one by one adds their concatenation to the buffer |
| JsonHandler.ApplyEmission | minjur-mp.cpp:43-57 | an early return changes nothing. Otherwise the records are appended, a caught error adds one to the count and, when there is a log, one log line; without a log none is opened. Then `maybe_flush`: if the buffer with the new records exceeds 1 MiB, all of it moves to the output and the buffer empties; otherwise the output is unchanged and the buffer holds it |
| JsonHandler.RunOutput | json_handler.hpp:54-56 | over a run closed by the destructor, the output is every record in input order, and the count grows by the number of caught errors |
| Exporter.CreatePoint | json_feature.hpp:59-61 | a point can be made exactly when the location is valid, and it is `(lon, lat)`; otherwise the error is invalid_location |
| Exporter.OneFeature | minjur-mp.cpp:64-76 | a failed geometry appends nothing and reports its error; a built one gives exactly one feature with that geometry, the object, the additions and an id exactly when ids are on |
| Exporter.PointFeature | minjur-mp.cpp:43-55 | a node's feature is its point with id role "n"; an invalid location gives no feature and an invalid_location error |
| Exporter.AsGeometry | json_feature.hpp:63-73 | a factory result gives a geometry exactly when the factory succeeded, and then it is the factory's coordinates in that geometry's shape; otherwise the factory's error is kept |
| TileIndex.Pow2Fits | tile.cpp:14 | for zoom at most 32 the grid width `1LL << zoom` fits the unsigned result |
| TileIndex.Clamp | tile.cpp:26-37 | the result is in [0, n-1]; an in-range value is unchanged; a negative value gives 0; a value of n or more gives n-1 |
| TileIndex.ClampNearest | tile.cpp:26-37 | the clamped value is the in-range value nearest to the raw one |
| TileIndex.ClampMonotone | tile.cpp:26-37 | clamping keeps order |
| TileIndex.RawRow | tile.cpp:17-24 | latitude 85.0511 or more gives row 0, -85.0511 or less gives row n-1, anything else the projection's row |
| TileIndex.LatLon2Tile | tile.cpp:11-40 | both coordinates are in [0, 2^zoom - 1]; the pole overrides hold; in-range projected values are returned unchanged |
| TileIndex.TileAxesIndependent | tile.cpp:16-17 | the column does not depend on the latitude and the row does not depend on the longitude |
| TileIndex.ColumnMonotone | tile.cpp:16 | a larger longitude never gives a smaller column, when the projection is monotone |
| TileList.NewTileDiff | minjur-generate-tilelist.cpp:36-40 | a new handler has no dirty tiles and maps locations with `latlon2tile` at its zoom |
| TileList.AddStored | minjur-generate-tilelist.cpp:44-46 | a lookup adds the tile of the stored location when it is valid; a missing id (the swallowed exception) adds nothing |
| TileList.OnNode | minjur-generate-tilelist.cpp:28-51 | a node adds exactly the tile of its old stored location and the tile of its new location, each only when that location is valid (`add_location`) |
| TileList.OnNodeAtMostTwo | minjur-generate-tilelist.cpp:42-51 | a node adds at most two tiles |
| TileList.OnWay | minjur-generate-tilelist.cpp:53-64 | a way never removes a tile |
| TileList.OnWayTiles | minjur-generate-tilelist.cpp:53-64 | a way adds exactly the tiles of its references' valid locations in the old store and in the temporary store |
| TileList.OnObject | minjur-generate-tilelist.cpp:42-64 | one object never removes a tile; a node's new location is recorded for the ways that follow |
| TileList.RunGrows | minjur-generate-tilelist.cpp:26-30 | the dirty set only grows while the change file is read |
| TileList.DumpTiles | minjur-generate-tilelist.cpp:66-70 | every dirty tile is listed once, in strictly ascending (x, y) order, as an `x y` line |
| TileList.SortedListingUnique | minjur-generate-tilelist.cpp:66-70 | a set has only one ascending listing, so the dump depends only on the set |
| Minjur.NewNoAreaHandler | minjur.cpp:58-161 | the constructor stores zoom, toggle and tile list; its filter gives every tag the verdict of the declared rule blocks; the shared part is `Create` |
| Minjur.ReadTilesList | minjur.cpp:290-309 | no file name gives an empty tile list |
| Minjur.TileAt | minjur.cpp:169 | a tile at the handler's zoom exists exactly for a valid location; otherwise invalid_location is thrown |
| Minjur.LinestringAndOrPolygon | minjur.cpp:44-54 | exactly one of linestring and polygon is chosen; an open way is a linestring; a way is a polygon exactly when it is closed and some tag matches the filter |
| Minjur.PolygonByBlocks | minjur.cpp:48 | with the constructor's filter, a closed way is a polygon exactly when some tag gets the rule table's "area" verdict |
| Minjur.AreaNoAloneIsLine | minjur.cpp:83-84 | a closed way tagged only `area=no` is a linestring |
| Minjur.AreaNoDoesNotVeto | minjur.cpp:48 | a closed way tagged `area=no` and `building=yes` is a polygon: `area=no` does not veto |
| Minjur.JoinIds | minjur.cpp:224-231 | the node list is empty exactly when the way has no nodes |
| Minjur.NodeIdList | minjur.cpp:224-231 | the loop over the nodes builds the comma-joined id list |
| Minjur.JoinIdsSplit | minjur.cpp:224-231 | splitting the node list at commas gives each node id in decimal, in order |
| Minjur.JoinIdsParse | minjur.cpp:229 | the i-th comma-separated piece reads back as the i-th node id |
| Minjur.JoinIdsCommas | minjur.cpp:226-228 | a list of k ids holds exactly k-1 commas, so there is no leading or trailing comma |
| Minjur.JoinIdsReadBack | minjur.cpp:224-231 | the node list has one comma-separated piece per node, and each reads back as that node's id |
| Minjur.NodeAttrAdditions | minjur.cpp:223-233 | the additions are empty exactly when no node attribute is named; otherwise they are one property under that name whose value splits at commas into the way's node ids, in order |
| Minjur.ScanTiles | minjur.cpp:196-209 | keep is true exactly when some reference's tile is in the list. An invalid location met before any hit throws invalid_location, and an error means one was met. With all locations valid nothing is thrown |
| Minjur.WayPart | minjur.cpp:218-258 | one output step of `way`'s try block: when the factory builds the linestring (role "wl") or polygon (role "wp"), exactly one feature of the way with that geometry and the additions; when it throws, no feature and that error |
| Minjur.WayFeatures | minjur.cpp:218-263 | the linestring's feature first and the polygon's last, each exactly when chosen and built; a linestring error ends the block with that error and no polygon; a polygon error is reported after the linestring; no error exactly when every chosen shape is built |
| Minjur.OnNode | minjur.cpp:163-189 | an untagged node is dropped; an invalid location is an invalid_location error; otherwise the node is dropped exactly when a tile list is given and its tile is not in it, and kept as its point |
| Minjur.OnWay | minjur.cpp:191-265 | a way with at most one node, or none of whose nodes is in a listed tile, is dropped; an invalid location met in the tile scan is an invalid_location error. A kept way is written as exactly one feature: the polygon when polygons are on, the way is closed and a tag matches, else the linestring, with the factory's coordinates, its id role and the node-list attribute; if the factory throws, nothing is written and its error is reported |
| Minjur.UntaggedNodeIgnored | minjur.cpp:164-166 | an untagged node leaves the handler exactly as it was |
| Minjur.ShortWayIgnored | minjur.cpp:192-194 | a way with at most one node leaves the handler exactly as it was |
| Minjur.InvalidNodeCounted | minjur.cpp:168-188 | a tagged node with an invalid location writes nothing, counts one error and logs one line |
| Minjur.NodeWithoutTileList | minjur.cpp:171-181 | without a tile list a tagged valid node always gives its point, with role "n" |
| Minjur.OtherZoomTilesDropNodes | minjur.cpp:169-173 | a tile list at another zoom drops every node |
| Minjur.WayKeptIffTileHit | minjur.cpp:196-209 | with a tile list and valid locations, a way is dropped exactly when none of its nodes' tiles is in the list |
| Minjur.WaysWithoutPolygons | minjur.cpp:211-237 | with polygon creation off every feature of a way is a linestring with role "wl"; a kept way whose linestring is built, closed or not, gives exactly that one feature |
| MinjurMp.NewAreaHandler | minjur-mp.cpp:34-36 | the constructor is the shared one with no node attribute: nothing written, no errors, a log exactly when a file is named |
| MinjurMp.OnNode | minjur-mp.cpp:38-58 | a node is dropped exactly when it is untagged; a tagged node with an invalid location gives no feature and an invalid_location error; otherwise exactly one feature, its point at `(lon, lat)` with role "n" |
| MinjurMp.OnWay | minjur-mp.cpp:60-79 | a way is dropped exactly when it has at most one node; otherwise, when the factory builds its linestring, exactly one feature of the way with that linestring, role "w" and no extra properties; when the factory throws, no feature and that error |
| MinjurMp.OnArea | minjur-mp.cpp:81-97 | an area is never dropped; when the factory builds its multipolygon, exactly one feature of the area with that multipolygon and role "a"; when the factory throws, no feature and that error |
| MinjurMp.FailureCounted | minjur-mp.cpp:51-55 | a geometry_error or invalid_location appends nothing, counts exactly one error and, when there is a log, logs one line |
| MinjurMp.FlushCheckedAfterEveryCall | minjur-mp.cpp:81-97 | every call past its early return ends in `maybe_flush`, failed or not: the output grows, by the whole buffer, only when the buffer with the call's records exceeds 1 MiB, and the buffer is within 1 MiB afterwards; an area call never returns early |
| MinjurMp.EarlyReturnsChangeNothing | minjur-mp.cpp:38-63 | an untagged node or a way with at most one node leaves the handler unchanged |
| Decimal.ParseShow | json_handler.cpp:18 | the decimal text of any id reads back as that id |
| Decimal.ShowInjective | minjur.cpp:229 | different ids have different decimal texts |

## Left out

- The `main` functions, option parsing, help and version output, and the choice of location store are not modelled. They are command-line plumbing.
- osm2geojson.cpp is not part of this model. It is a separate prototype.
- libosmium's reader, the multipolygon collector and assembler, `NodeLocationsForWays` and the location-index backends are not modelled. A location store is a map from node id to location.
- The geometry factory driver is a parameter (`Exporter.Factory`): it builds linestring, polygon and multipolygon coordinates, or throws. The order in which it calls the callbacks is modelled by the event functions in GeoJson.
- The column and row of `osmium::geom::Tile` are a parameter (`Minjur.TileFunction`). Only its invalid-location exception is modelled.
- `area_id_to_object_id` is a parameter (`Output.areaToObjectId`).
- The Web-Mercator projection of `latlon2tile` (log, tan, cos) is a parameter (`TileIndex.Projection`). Floating point is not modelled.
- rapidjson's number formatting and string escaping are a parameter (`Renderer`), and so is the byte rendering of the events.
- The `write(2)` call and its assertion, and `std::ofstream` behaviour, are not modelled. The output and the error log are strings.
- Minjur.ReadTilesList: reading a named file (minjur.cpp:301-306) depends on iostream extraction at end of file. The model takes the tiles read as a parameter, so only the empty-name case is stated.
- TileIndex.LatLon2Tile: the bounds are stated for zoom at most 32, where `1LL << zoom` fits the unsigned result. The function accepts zoom up to 62 and wraps to 32 bits beyond 32.
- JsonHandler.ApplyEmission: `m_geometry_error_count` is an `int`. Its 32-bit overflow is not modelled; the count is unbounded.
- `JsonHandler.GeometryErrorCount` reads the counter. It has no contract of its own, because the counter's behaviour is stated by `ReportGeometryProblem`, `ApplyEmission` and `RunOutput`.
- The source is internally inconsistent in four places. The model follows the evident intent in each:
  - json_feature.cpp:9 writes `m_attr_prefix + "id"` (and similar), but the class holds `attribute_names` (json_feature.hpp:45). The model writes the `attribute_names` fields.
  - minjur.cpp:235 calls a two-argument `add_properties` that json_feature.hpp:77 does not declare. The model writes the additions after the reserved attributes and before the tags.
  - minjur.cpp:59 passes a node attribute to a constructor that json_handler.hpp:43 declares with three parameters, and minjur.cpp:223 calls an undeclared `node_attr()`. The model keeps the node attribute in the handler state.
  - `add_id` is declared (json_feature.hpp:75) but its definition is not part of this model. The model writes one member "id" whose value is the role followed by the decimal id.
- rapid_geojson.hpp has no polygon callbacks, yet `add_polygon` (json_feature.hpp:67-69) asks the factory for one. The model writes a GeoJSON Polygon with the way's ring as its only ring, with the same header and bracket shape as the other geometries.

=== FILE: decimal.dfy ===
/** Decimal rendering of integers as done by std::to_string and std::ostream, with a parser as its inverse. */
module Decimal {
  import opened Wrappers

  predicate IsDigit(c: char) {
    '0' <= c <= '9'
  }

  predicate AllDigits(s: string) {
    forall i :: 0 <= i < |s| ==> IsDigit(s[i])
  }

  function DigitChar(d: nat): (c: char)
    requires d < 10
    ensures IsDigit(c)
    ensures c as int - '0' as int == d
  {
    ('0' as int + d) as char
  }

  /** The decimal digits of n, most significant first, without leading zeros. */
  function DigitsOf(n: nat): (s: string)
    ensures |s| >= 1
    ensures AllDigits(s)
    ensures s[0] == '0' ==> n == 0
    decreases n
  {
    if n < 10 then [DigitChar(n)] else DigitsOf(n / 10) + [DigitChar(n % 10)]
  }

  /** std::to_string of a signed integer: an optional '-' followed by the digits of the magnitude. */
  function Show(i: int): (s: string)
    ensures |s| >= 1
    ensures i < 0 <==> s[0] == '-'
    ensures forall k :: 0 <= k < |s| ==> s[k] == '-' || IsDigit(s[k])
  {
    if i < 0 then "-" + DigitsOf(-i) else DigitsOf(i)
  }

  /** The value of a non-empty run of digits. */
  function DigitsValue(s: string): nat
    requires |s| >= 1 && AllDigits(s)
    decreases |s|
  {
    var last := s[|s| - 1] as int - '0' as int;
    if |s| == 1 then last else 10 * DigitsValue(s[..|s| - 1]) + last
  }

  /** Reads back a decimal written by Show; None for anything that is not an optional '-' and digits. */
  function Parse(s: string): (r: Option<int>)
    ensures r.Some? ==> |s| >= 1
  {
    if |s| >= 2 && s[0] == '-' && AllDigits(s[1..]) then
      var magnitude: int := DigitsValue(s[1..]);
      Some(-magnitude)
    else if |s| >= 1 && AllDigits(s) then Some(DigitsValue(s))
    else None
  }

  lemma {:induction false} DigitsValueOfDigits(n: nat)
    ensures DigitsValue(DigitsOf(n)) == n
    decreases n
  {
    if n >= 10 {
      var s := DigitsOf(n);
      assert s[..|s| - 1] == DigitsOf(n / 10);
      DigitsValueOfDigits(n / 10);
    }
  }

  /** Show and Parse are inverse: every integer written in decimal reads back as itself. */
  lemma ParseShow(i: int)
    ensures Parse(Show(i)) == Some(i)
  {
    if i < 0 {
      assert Show(i)[1..] == DigitsOf(-i);
      DigitsValueOfDigits(-i);
    } else {
      DigitsValueOfDigits(i);
    }
  }

  /** Show is injective, so distinct ids always render distinctly. */
  lemma ShowInjective(i: int, j: int)
    requires Show(i) == Show(j)
    ensures i == j
  {
    ParseShow(i);
    ParseShow(j);
  }
}

=== FILE: exporter.dfy ===
/**
 * What the exporters' handlers share when they turn one OSM object into features: the
 * geometry factory they call, the point creation every node handler does, and how a
 * feature's optional id is chosen.
 */
module Exporter {
  import opened Wrappers
  import opened Osm
  import opened GeoJson
  import opened JsonFeature
  import opened JsonHandler

  /**
   * The parts of osmium's geometry factory driver that are not modelled: building the
   * coordinates of a way's linestring or polygon and of an area's multipolygon, each of
   * which may throw geometry_error or invalid_location.
   */
  datatype Factory = Factory(
    linestring: seq<NodeRef> -> Result<seq<Coordinates>, GeomError>,
    polygon: seq<NodeRef> -> Result<seq<Coordinates>, GeomError>,
    multipolygon: OsmObject -> Result<seq<PolygonRings>, GeomError>)

  /** create_point: reading the coordinates of an invalid location throws invalid_location. */
  function CreatePoint(loc: Location): (r: Result<Coordinates, GeomError>)
    ensures r.Ok? <==> loc.Valid()
    ensures r.Err? ==> r.error == InvalidLocation
    ensures r.Ok? ==> r.value == Coordinates(loc.Lon(), loc.Lat())
  {
    if loc.Valid() then Ok(Coordinates(loc.Lon(), loc.Lat())) else Err(InvalidLocation)
  }

  /** The add_id call: made only when ids are switched on. */
  function FeatureIdFor(withId: bool, role: string, id: int): Option<FeatureId> {
    if withId then Some(FeatureId(role, id)) else None
  }

  /**
   * The try block after any early return: build one feature from a geometry the factory
   * produced, or catch the factory's error. Nothing is appended when the factory throws.
   */
  function OneFeature(withId: bool, role: string, o: OsmObject, geometry: Result<Geometry, GeomError>, additions: seq<Tag>): (e: Emission<FeatureSpec>)
    ensures e.Done?
    ensures geometry.Err? <==> e.records == []
    ensures geometry.Err? ==> e.failure == Some(geometry.error)
    ensures geometry.Ok? ==>
      && e.failure.None? && |e.records| == 1
      && e.records[0].geometry == geometry.value && e.records[0].source == o && e.records[0].additions == additions
      && (e.records[0].fid.Some? <==> withId)
      && (withId ==> e.records[0].fid.value == FeatureId(role, o.meta.id))
  {
    match geometry
    case Err(err) => Done([], Some(err))
    case Ok(g) => Done([FeatureSpec(FeatureIdFor(withId, role, o.meta.id), g, o, additions)], None)
  }

  /** The node's point, tagged with the id role "n"; an invalid location is caught as invalid_location. */
  function PointFeature(withId: bool, node: OsmObject): (e: Emission<FeatureSpec>)
    requires node.Node?
    ensures e.Done?
    ensures !node.location.Valid() <==> e.failure.Some?
    ensures !node.location.Valid() ==> e == Done([], Some(InvalidLocation))
    ensures node.location.Valid() ==>
      && |e.records| == 1
      && e.records[0] == FeatureSpec(FeatureIdFor(withId, "n", node.meta.id), Point(Coordinates(node.location.Lon(), node.location.Lat())), node, [])
  {
    var xy := CreatePoint(node.location);
    OneFeature(withId, "n", node, if xy.Ok? then Ok(Point(xy.value)) else Err(xy.error), [])
  }

  /** A factory result as the geometry it stands for. */
  function AsGeometry<T>(r: Result<T, GeomError>, make: T -> Geometry): (g: Result<Geometry, GeomError>)
    ensures g.Ok? <==> r.Ok?
    ensures g.Err? ==> g.error == r.error
    ensures r.Ok? ==> g.value == make(r.value)
  {
    match r
    case Ok(v) => Ok(make(v))
    case Err(err) => Err(err)
  }

  /** The effect of one handler call on the shared JSONHandler state, features rendered through out. */
  function Handle(h: Handler, o: OsmObject, d: Emission<FeatureSpec>, out: Output): Handler {
    ApplyEmission(h, o, RenderEmission(d, h.names, out))
  }
}

=== FILE: geojson.dfy ===
/**
 * RapidGeoJSONFactoryImpl: the writer events emitted for each geometry callback
 * (RFC 7946 section 3.1.2 Point, 3.1.4 LineString, 3.1.6 Polygon, 3.1.7 MultiPolygon),
 * and the call order of the geometry factory driver that invokes those callbacks.
 */
module GeoJson {
  import opened Wrappers
  import opened JsonEvents

  datatype Coordinates = Coordinates(x: real, y: real)

  /** One polygon of a multipolygon: an outer ring and its inner rings. */
  datatype PolygonRings = PolygonRings(outer: seq<Coordinates>, inners: seq<seq<Coordinates>>)

  datatype Geometry =
    | Point(at: Coordinates)
    | LineString(points: seq<Coordinates>)
    | Polygon(ring: seq<Coordinates>)
    | MultiPolygon(polygons: seq<PolygonRings>)

  function TypeName(g: Geometry): string {
    match g
    case Point(_) => "Point"
    case LineString(_) => "LineString"
    case Polygon(_) => "Polygon"
    case MultiPolygon(_) => "MultiPolygon"
  }

  /** The opening shared by every geometry: `"geometry": {"type": <name>, "coordinates": [`. */
  function Header(typeName: string): seq<Event> {
    [Str("geometry"), StartObject, Str("type"), Str(typeName), Str("coordinates"), StartArray]
  }

  /** One position `[x, y]`, as linestring_add_location and multipolygon_add_location write it. */
  function Position(xy: Coordinates): seq<Event> {
    [StartArray, Double(xy.x), Double(xy.y), EndArray]
  }

  // The factory callbacks, one function each.

  function MakePoint(xy: Coordinates): (es: seq<Event>)
    ensures es == Header("Point")[..5] + Position(xy) + [EndObject]
  {
    [Str("geometry"), StartObject, Str("type"), Str("Point"), Str("coordinates"),
     StartArray, Double(xy.x), Double(xy.y), EndArray, EndObject]
  }

  function LinestringStart(): seq<Event> { Header("LineString") }

  function LinestringAddLocation(xy: Coordinates): seq<Event> { Position(xy) }

  /** The point count the driver passes is not used. */
  function LinestringFinish(numPoints: nat): seq<Event> { [EndArray, EndObject] }

  function MultipolygonStart(): seq<Event> { Header("MultiPolygon") }

  function MultipolygonPolygonStart(): seq<Event> { [StartArray] }

  function MultipolygonPolygonFinish(): seq<Event> { [EndArray] }

  function MultipolygonOuterRingStart(): seq<Event> { [StartArray] }

  function MultipolygonOuterRingFinish(): seq<Event> { [EndArray] }

  function MultipolygonInnerRingStart(): seq<Event> { [StartArray] }

  function MultipolygonInnerRingFinish(): seq<Event> { [EndArray] }

  function MultipolygonAddLocation(xy: Coordinates): seq<Event> { Position(xy) }

  function MultipolygonFinish(): seq<Event> { [EndArray, EndObject] }

  /** Polygon callbacks as libosmium's GeoJSON factories write them: one ring inside the coordinates array. */
  function PolygonStart(): seq<Event> { Header("Polygon") + [StartArray] }

  function PolygonFinish(numPoints: nat): seq<Event> { [EndArray, EndArray, EndObject] }

  // The driver: the order in which the geometry factory invokes the callbacks.

  /** The add_location calls for a run of points, in order. */
  function Positions(pts: seq<Coordinates>): (es: seq<Event>)
    ensures |es| == 4 * |pts|
    ensures forall i :: 0 <= i < |pts| ==> es[4 * i..4 * i + 4] == Position(pts[i])
    decreases |pts|
  {
    if |pts| == 0 then []
    else
      var rest := Positions(pts[1..]);
      var es := Position(pts[0]) + rest;
      assert forall i :: 1 <= i < |pts| ==> es[4 * i..4 * i + 4] == rest[4 * (i - 1)..4 * (i - 1) + 4];
      es
  }

  function LineStringEvents(pts: seq<Coordinates>): seq<Event> {
    LinestringStart() + Positions(pts) + LinestringFinish(|pts|)
  }

  function InnerRingsEvents(rings: seq<seq<Coordinates>>): seq<Event>
    decreases |rings|
  {
    if |rings| == 0 then []
    else MultipolygonInnerRingStart() + Positions(rings[0]) + MultipolygonInnerRingFinish()
         + InnerRingsEvents(rings[1..])
  }

  function PolygonRingsEvents(p: PolygonRings): seq<Event> {
    MultipolygonPolygonStart()
    + MultipolygonOuterRingStart() + Positions(p.outer) + MultipolygonOuterRingFinish()
    + InnerRingsEvents(p.inners)
    + MultipolygonPolygonFinish()
  }

  function PolygonsEvents(ps: seq<PolygonRings>): seq<Event>
    decreases |ps|
  {
    if |ps| == 0 then [] else PolygonRingsEvents(ps[0]) + PolygonsEvents(ps[1..])
  }

  function MultiPolygonEvents(ps: seq<PolygonRings>): seq<Event> {
    MultipolygonStart() + PolygonsEvents(ps) + MultipolygonFinish()
  }

  function PolygonEvents(ring: seq<Coordinates>): seq<Event> {
    PolygonStart() + Positions(ring) + PolygonFinish(|ring|)
  }

  /** Everything the factory writes for one geometry. */
  function GeometryEvents(g: Geometry): (es: seq<Event>)
    ensures |es| >= 6
    ensures es[..4] == [Str("geometry"), StartObject, Str("type"), Str(TypeName(g))]
    ensures es[|es| - 1] == EndObject
  {
    match g
    case Point(xy) => MakePoint(xy)
    case LineString(pts) => LineStringEvents(pts)
    case Polygon(ring) => PolygonEvents(ring)
    case MultiPolygon(ps) => MultiPolygonEvents(ps)
  }

  // Reading the events back: the stream determines the geometry.

  /** Reads consecutive positions; stops at the first event run that is not one. */
  function ParsePositions(es: seq<Event>): (r: (seq<Coordinates>, seq<Event>))
    ensures |r.1| <= |es|
    decreases |es|
  {
    if |es| >= 4 && es[0] == StartArray && es[1].Double? && es[2].Double? && es[3] == EndArray then
      var (pts, rest) := ParsePositions(es[4..]);
      ([Coordinates(es[1].d, es[2].d)] + pts, rest)
    else ([], es)
  }

  /** Reads one ring: `[`, positions, `]`. */
  function ParseRing(es: seq<Event>): (r: Option<(seq<Coordinates>, seq<Event>)>)
    ensures r.Some? ==> |r.value.1| < |es|
  {
    if |es| >= 1 && es[0] == StartArray then
      var (pts, rest) := ParsePositions(es[1..]);
      if |rest| >= 1 && rest[0] == EndArray then Some((pts, rest[1..])) else None
    else None
  }

  /** Reads rings for as long as the next event opens an array. */
  function ParseRings(es: seq<Event>): (r: Option<(seq<seq<Coordinates>>, seq<Event>)>)
    ensures r.Some? ==> |r.value.1| <= |es|
    decreases |es|
  {
    if |es| >= 1 && es[0] == StartArray then
      match ParseRing(es)
      case None => None
      case Some((ring, rest)) =>
        match ParseRings(rest)
        case None => None
        case Some((rings, rest')) => Some(([ring] + rings, rest'))
    else Some(([], es))
  }

  /** Reads one polygon: `[`, outer ring, inner rings, `]`. */
  function ParsePolygon(es: seq<Event>): (r: Option<(PolygonRings, seq<Event>)>)
    ensures r.Some? ==> |r.value.1| < |es|
  {
    if |es| >= 1 && es[0] == StartArray then
      match ParseRing(es[1..])
      case None => None
      case Some((outer, rest)) =>
        match ParseRings(rest)
        case None => None
        case Some((inners, rest')) =>
          if |rest'| >= 1 && rest'[0] == EndArray then Some((PolygonRings(outer, inners), rest'[1..]))
          else None
    else None
  }

  function ParsePolygons(es: seq<Event>): (r: Option<(seq<PolygonRings>, seq<Event>)>)
    decreases |es|
  {
    if |es| >= 1 && es[0] == StartArray then
      match ParsePolygon(es)
      case None => None
      case Some((p, rest)) =>
        match ParsePolygons(rest)
        case None => None
        case Some((ps, rest')) => Some(([p] + ps, rest'))
    else Some(([], es))
  }

  /** The geometry a factory event stream describes, if it is one. */
  function DecodeGeometry(es: seq<Event>): Option<Geometry> {
    if |es| == 10 && es[..5] == Header("Point")[..5] && es[6].Double? && es[7].Double?
       && es[5..] == Position(Coordinates(es[6].d, es[7].d)) + [EndObject] then
      Some(Point(Coordinates(es[6].d, es[7].d)))
    else if |es| >= 6 && es[..6] == Header("LineString") then
      var (pts, rest) := ParsePositions(es[6..]);
      if rest == [EndArray, EndObject] then Some(LineString(pts)) else None
    else if |es| >= 7 && es[..7] == PolygonStart() then
      var (pts, rest) := ParsePositions(es[7..]);
      if rest == [EndArray, EndArray, EndObject] then Some(Polygon(pts)) else None
    else if |es| >= 6 && es[..6] == Header("MultiPolygon") then
      match ParsePolygons(es[6..])
      case None => None
      case Some((ps, rest)) => if rest == [EndArray, EndObject] then Some(MultiPolygon(ps)) else None
    else None
  }

  lemma {:induction false} ParsePositionsOf(pts: seq<Coordinates>, rest: seq<Event>)
    requires |rest| >= 1 && rest[0] == EndArray
    ensures ParsePositions(Positions(pts) + rest) == (pts, rest)
    decreases |pts|
  {
    if |pts| == 0 {
      assert Positions(pts) + rest == rest;
    } else {
      var es := Positions(pts) + rest;
      assert es[..4] == Position(pts[0]);
      assert es[4..] == Positions(pts[1..]) + rest;
      ParsePositionsOf(pts[1..], rest);
      assert [pts[0]] + pts[1..] == pts;
    }
  }

  lemma ParseRingOf(ring: seq<Coordinates>, rest: seq<Event>)
    ensures ParseRing([StartArray] + Positions(ring) + [EndArray] + rest) == Some((ring, rest))
  {
    var es := [StartArray] + Positions(ring) + [EndArray] + rest;
    assert es[1..] == Positions(ring) + ([EndArray] + rest);
    ParsePositionsOf(ring, [EndArray] + rest);
    assert ([EndArray] + rest)[1..] == rest;
  }

  lemma {:induction false} ParseInnerRingsOf(rings: seq<seq<Coordinates>>, rest: seq<Event>)
    requires |rest| >= 1 && rest[0] == EndArray
    ensures ParseRings(InnerRingsEvents(rings) + rest) == Some((rings, rest))
    decreases |rings|
  {
    if |rings| == 0 {
      assert InnerRingsEvents(rings) + rest == rest;
    } else {
      var tail := InnerRingsEvents(rings[1..]) + rest;
      assert InnerRingsEvents(rings) + rest == [StartArray] + Positions(rings[0]) + [EndArray] + tail;
      ParseRingOf(rings[0], tail);
      ParseInnerRingsOf(rings[1..], rest);
      assert [rings[0]] + rings[1..] == rings;
    }
  }

  /** A polygon's events split as the parser reads them: `[`, the outer ring, what follows it. */
  lemma PolygonRingsShape(outer: seq<Event>, inners: seq<Event>, rest: seq<Event>)
    ensures var es := [StartArray] + [StartArray] + outer + [EndArray] + inners + [EndArray] + rest;
      && |es| >= 1 && es[0] == StartArray
      && es[1..] == [StartArray] + outer + [EndArray] + (inners + ([EndArray] + rest))
  {
    var es := [StartArray] + [StartArray] + outer + [EndArray] + inners + [EndArray] + rest;
    assert es == [StartArray] + ([StartArray] + outer + [EndArray] + (inners + ([EndArray] + rest)));
  }

  lemma ParsePolygonOf(p: PolygonRings, rest: seq<Event>)
    ensures ParsePolygon(PolygonRingsEvents(p) + rest) == Some((p, rest))
  {
    var afterOuter := InnerRingsEvents(p.inners) + ([EndArray] + rest);
    PolygonRingsShape(Positions(p.outer), InnerRingsEvents(p.inners), rest);
    ParseRingOf(p.outer, afterOuter);
    ParseInnerRingsOf(p.inners, [EndArray] + rest);
    assert ([EndArray] + rest)[1..] == rest;
  }

  lemma {:induction false} ParsePolygonsOf(ps: seq<PolygonRings>, rest: seq<Event>)
    requires |rest| >= 1 && rest[0] == EndArray
    ensures ParsePolygons(PolygonsEvents(ps) + rest) == Some((ps, rest))
    decreases |ps|
  {
    if |ps| == 0 {
      assert PolygonsEvents(ps) + rest == rest;
    } else {
      var tail := PolygonsEvents(ps[1..]) + rest;
      assert PolygonsEvents(ps) + rest == PolygonRingsEvents(ps[0]) + tail;
      ParsePolygonOf(ps[0], tail);
      ParsePolygonsOf(ps[1..], rest);
      assert [ps[0]] + ps[1..] == ps;
    }
  }

  lemma DecodePointEvents(xy: Coordinates)
    ensures DecodeGeometry(GeometryEvents(Point(xy))) == Some(Point(xy))
  {
    var es := MakePoint(xy);
    assert es[..5] == Header("Point")[..5];
    assert es[5..] == Position(Coordinates(es[6].d, es[7].d)) + [EndObject];
  }

  lemma DecodeLineStringEvents(pts: seq<Coordinates>)
    ensures DecodeGeometry(GeometryEvents(LineString(pts))) == Some(LineString(pts))
  {
    var es := LineStringEvents(pts);
    assert es[..6] == Header("LineString");
    assert es[..5] != Header("Point")[..5] by { assert es[3] == Str("LineString"); }
    assert es[6..] == Positions(pts) + [EndArray, EndObject];
    ParsePositionsOf(pts, [EndArray, EndObject]);
  }

  lemma DecodePolygonEvents(ring: seq<Coordinates>)
    ensures DecodeGeometry(GeometryEvents(Polygon(ring))) == Some(Polygon(ring))
  {
    var es := PolygonEvents(ring);
    assert es[..7] == PolygonStart();
    assert es[..5] != Header("Point")[..5] by { assert es[3] == Str("Polygon"); }
    assert es[..6] != Header("LineString") by { assert es[3] == Str("Polygon"); }
    assert es[7..] == Positions(ring) + [EndArray, EndArray, EndObject];
    ParsePositionsOf(ring, [EndArray, EndArray, EndObject]);
  }

  /** The events after a header are the body and its closing events. */
  lemma HeaderSplit(typeName: string, inner: seq<Event>, tail: seq<Event>)
    ensures var es := Header(typeName) + inner + tail;
      && |es| >= 6 && es[..6] == Header(typeName) && es[3] == Str(typeName) && es[6..] == inner + tail
  {
  }

  lemma DecodeMultiPolygonEvents(ps: seq<PolygonRings>)
    ensures DecodeGeometry(GeometryEvents(MultiPolygon(ps))) == Some(MultiPolygon(ps))
  {
    var es := MultiPolygonEvents(ps);
    HeaderSplit("MultiPolygon", PolygonsEvents(ps), [EndArray, EndObject]);
    assert es[..5] != Header("Point")[..5] by { assert es[3] == Str("MultiPolygon"); }
    assert es[..6] != Header("LineString") by { assert es[3] == Str("MultiPolygon"); }
    assert |es| < 7 || es[..7] != PolygonStart() by { assert es[3] == Str("MultiPolygon"); }
    ParsePolygonsOf(ps, [EndArray, EndObject]);
  }

  /** The factory's output is lossless: decoding the events of any geometry gives that geometry back. */
  lemma DecodeGeometryEvents(g: Geometry)
    ensures DecodeGeometry(GeometryEvents(g)) == Some(g)
  {
    match g
    case Point(xy) => DecodePointEvents(xy);
    case LineString(pts) => DecodeLineStringEvents(pts);
    case Polygon(ring) => DecodePolygonEvents(ring);
    case MultiPolygon(ps) => DecodeMultiPolygonEvents(ps);
  }

  // Bracket balance of every factory output.

  lemma PositionBalanced(xy: Coordinates)
    ensures Balanced(Position(xy))
  {
    BalancedScalars([Double(xy.x), Double(xy.y)]);
    BalancedWrap(StartArray, [Double(xy.x), Double(xy.y)], EndArray);
    assert Position(xy) == [StartArray] + [Double(xy.x), Double(xy.y)] + [EndArray];
  }

  lemma {:induction false} PositionsBalanced(pts: seq<Coordinates>)
    ensures Balanced(Positions(pts))
    decreases |pts|
  {
    if |pts| == 0 {
      BalancedScalars([]);
    } else {
      PositionBalanced(pts[0]);
      PositionsBalanced(pts[1..]);
      BalancedConcat(Position(pts[0]), Positions(pts[1..]));
    }
  }

  /** `[`, positions, `]`: the shape of every ring and of a linestring's coordinates. */
  lemma PositionArrayBalanced(pts: seq<Coordinates>)
    ensures Balanced([StartArray] + Positions(pts) + [EndArray])
  {
    PositionsBalanced(pts);
    BalancedWrap(StartArray, Positions(pts), EndArray);
  }

  lemma {:induction false} InnerRingsBalanced(rings: seq<seq<Coordinates>>)
    ensures Balanced(InnerRingsEvents(rings))
    decreases |rings|
  {
    if |rings| == 0 {
      BalancedScalars([]);
    } else {
      PositionArrayBalanced(rings[0]);
      InnerRingsBalanced(rings[1..]);
      BalancedConcat([StartArray] + Positions(rings[0]) + [EndArray], InnerRingsEvents(rings[1..]));
    }
  }

  lemma PolygonRingsBalanced(p: PolygonRings)
    ensures Balanced(PolygonRingsEvents(p))
  {
    var outer := [StartArray] + Positions(p.outer) + [EndArray];
    PositionArrayBalanced(p.outer);
    InnerRingsBalanced(p.inners);
    BalancedConcat(outer, InnerRingsEvents(p.inners));
    BalancedWrap(StartArray, outer + InnerRingsEvents(p.inners), EndArray);
    assert PolygonRingsEvents(p) == [StartArray] + (outer + InnerRingsEvents(p.inners)) + [EndArray];
  }

  lemma {:induction false} PolygonsBalanced(ps: seq<PolygonRings>)
    ensures Balanced(PolygonsEvents(ps))
    decreases |ps|
  {
    if |ps| == 0 {
      BalancedScalars([]);
    } else {
      PolygonRingsBalanced(ps[0]);
      PolygonsBalanced(ps[1..]);
      BalancedConcat(PolygonRingsEvents(ps[0]), PolygonsEvents(ps[1..]));
    }
  }

  /** `"geometry": {"type": t, "coordinates": body}` is balanced whenever body is. */
  lemma GeometryObjectBalanced(typeName: string, body: seq<Event>)
    requires Balanced(body)
    ensures Balanced([StartObject, Str("type"), Str(typeName), Str("coordinates")] + body + [EndObject])
    ensures Balanced([Str("geometry"), StartObject, Str("type"), Str(typeName), Str("coordinates")] + body + [EndObject])
  {
    var head := [Str("type"), Str(typeName), Str("coordinates")];
    BalancedScalars(head);
    BalancedConcat(head, body);
    BalancedWrap(StartObject, head + body, EndObject);
    assert [StartObject] + (head + body) + [EndObject]
        == [StartObject, Str("type"), Str(typeName), Str("coordinates")] + body + [EndObject];
    BalancedScalars([Str("geometry")]);
    BalancedConcat([Str("geometry")], [StartObject] + (head + body) + [EndObject]);
    assert [Str("geometry")] + ([StartObject] + (head + body) + [EndObject])
        == [Str("geometry"), StartObject, Str("type"), Str(typeName), Str("coordinates")] + body + [EndObject];
  }

  lemma PointBalanced(xy: Coordinates)
    ensures Balanced(MakePoint(xy)[1..]) && Balanced(MakePoint(xy))
  {
    PositionBalanced(xy);
    GeometryObjectBalanced("Point", Position(xy));
    assert MakePoint(xy) == [Str("geometry"), StartObject, Str("type"), Str("Point"), Str("coordinates")] + Position(xy) + [EndObject];
    assert MakePoint(xy)[1..] == [StartObject, Str("type"), Str("Point"), Str("coordinates")] + Position(xy) + [EndObject];
  }

  lemma LineStringBalanced(pts: seq<Coordinates>)
    ensures Balanced(LineStringEvents(pts)[1..]) && Balanced(LineStringEvents(pts))
  {
    var body := [StartArray] + Positions(pts) + [EndArray];
    PositionArrayBalanced(pts);
    GeometryObjectBalanced("LineString", body);
    assert LineStringEvents(pts) == [Str("geometry"), StartObject, Str("type"), Str("LineString"), Str("coordinates")] + body + [EndObject];
    assert LineStringEvents(pts)[1..] == [StartObject, Str("type"), Str("LineString"), Str("coordinates")] + body + [EndObject];
  }

  lemma PolygonBalanced(ring: seq<Coordinates>)
    ensures Balanced(PolygonEvents(ring)[1..]) && Balanced(PolygonEvents(ring))
  {
    var body := [StartArray] + ([StartArray] + Positions(ring) + [EndArray]) + [EndArray];
    PositionArrayBalanced(ring);
    BalancedWrap(StartArray, [StartArray] + Positions(ring) + [EndArray], EndArray);
    GeometryObjectBalanced("Polygon", body);
    assert PolygonEvents(ring) == [Str("geometry"), StartObject, Str("type"), Str("Polygon"), Str("coordinates")] + body + [EndObject];
    assert PolygonEvents(ring)[1..] == [StartObject, Str("type"), Str("Polygon"), Str("coordinates")] + body + [EndObject];
  }

  /** A header, a balanced body and the closing `]` `}` make a balanced geometry, with or without its key. */
  lemma ArrayGeometryBalanced(typeName: string, inner: seq<Event>)
    requires Balanced(inner)
    ensures Balanced((Header(typeName) + inner + [EndArray, EndObject])[1..])
    ensures Balanced(Header(typeName) + inner + [EndArray, EndObject])
  {
    var body := [StartArray] + inner + [EndArray];
    BalancedWrap(StartArray, inner, EndArray);
    GeometryObjectBalanced(typeName, body);
    var es := Header(typeName) + inner + [EndArray, EndObject];
    assert es == [Str("geometry"), StartObject, Str("type"), Str(typeName), Str("coordinates")] + body + [EndObject];
    assert es[1..] == [StartObject, Str("type"), Str(typeName), Str("coordinates")] + body + [EndObject];
  }

  lemma MultiPolygonBalanced(ps: seq<PolygonRings>)
    ensures Balanced(MultiPolygonEvents(ps)[1..]) && Balanced(MultiPolygonEvents(ps))
  {
    PolygonsBalanced(ps);
    ArrayGeometryBalanced("MultiPolygon", PolygonsEvents(ps));
  }

  /**
   * Every geometry is `"geometry"` followed by one balanced object: each start/finish
   * callback pair of a well-nested driver call sequence opens and closes one array.
   */
  lemma GeometryBalanced(g: Geometry)
    ensures Balanced(GeometryEvents(g)[1..])
    ensures Balanced(GeometryEvents(g))
  {
    match g
    case Point(xy) => PointBalanced(xy);
    case LineString(pts) => LineStringBalanced(pts);
    case Polygon(ring) => PolygonBalanced(ring);
    case MultiPolygon(ps) => MultiPolygonBalanced(ps);
  }
}

=== FILE: json_events.dfy ===
/**
 * The calls a rapidjson::Writer receives, as a sequence of events, with the
 * bracket discipline a JSON text needs and the key/value layout of object members.
 * The byte rendering of events (number formatting, string escaping) is not modelled here.
 */
module JsonEvents {
  import opened Wrappers

  datatype Event =
    | StartObject
    | EndObject
    | StartArray
    | EndArray
    | Str(s: string)   // Writer::String, used for keys and for string values
    | Int(i: int)      // Writer::Int, a 32-bit signed value
    | Int64(i: int)    // Writer::Int64
    | Double(d: real)  // Writer::Double

  predicate IsScalar(e: Event) {
    e.Str? || e.Int? || e.Int64? || e.Double?
  }

  const TwoTo31: int := 0x8000_0000
  const TwoTo32: int := 0x1_0000_0000

  /** The implicit conversion of an unsigned 32-bit field to the `int` Writer::Int takes. */
  function ToInt32(v: int): (r: int)
    ensures -TwoTo31 <= r < TwoTo31
    ensures (r - v) % TwoTo32 == 0
    ensures -TwoTo31 <= v < TwoTo31 ==> r == v
  {
    var m := v % TwoTo32;
    if m < TwoTo31 then m else m - TwoTo32
  }

  /** What is currently open: an object or an array. */
  datatype Bracket = ObjectBracket | ArrayBracket

  function Step(open: seq<Bracket>, e: Event): Option<seq<Bracket>> {
    match e
    case StartObject => Some(open + [ObjectBracket])
    case StartArray => Some(open + [ArrayBracket])
    case EndObject =>
      if |open| > 0 && open[|open| - 1] == ObjectBracket then Some(open[..|open| - 1]) else None
    case EndArray =>
      if |open| > 0 && open[|open| - 1] == ArrayBracket then Some(open[..|open| - 1]) else None
    case _ => Some(open)
  }

  /** Replays es from the open brackets `open`; None when a close does not match the innermost open. */
  function Nest(es: seq<Event>, open: seq<Bracket>): Option<seq<Bracket>>
    decreases |es|
  {
    if |es| == 0 then Some(open)
    else match Step(open, es[0])
      case None => None
      case Some(next) => Nest(es[1..], next)
  }

  /** Every bracket opened in es is closed in es by the matching kind, in nesting order. */
  predicate Balanced(es: seq<Event>) {
    Nest(es, []) == Some([])
  }

  lemma {:induction false} NestConcat(a: seq<Event>, b: seq<Event>, open: seq<Bracket>)
    ensures Nest(a + b, open) == if Nest(a, open).Some? then Nest(b, Nest(a, open).value) else None
    decreases |a|
  {
    if |a| == 0 {
      assert a + b == b;
    } else {
      assert (a + b)[0] == a[0];
      assert (a + b)[1..] == a[1..] + b;
      match Step(open, a[0])
      case None =>
      case Some(next) =>
        assert Nest(a, open) == Nest(a[1..], next);
        NestConcat(a[1..], b, next);
    }
  }

  /** Brackets opened before es are untouched by a replay of es that succeeds. */
  lemma {:induction false} NestFrame(es: seq<Event>, open: seq<Bracket>, outer: seq<Bracket>)
    requires Nest(es, open).Some?
    ensures Nest(es, outer + open) == Some(outer + Nest(es, open).value)
    decreases |es|
  {
    if |es| > 0 {
      var next := Step(open, es[0]).value;
      assert Step(outer + open, es[0]) == Some(outer + next) by {
        match es[0]
        case StartObject => assert (outer + open) + [ObjectBracket] == outer + (open + [ObjectBracket]);
        case StartArray => assert (outer + open) + [ArrayBracket] == outer + (open + [ArrayBracket]);
        case EndObject =>
          assert (outer + open)[|outer + open| - 1] == open[|open| - 1];
          assert (outer + open)[..|outer + open| - 1] == outer + open[..|open| - 1];
        case EndArray =>
          assert (outer + open)[|outer + open| - 1] == open[|open| - 1];
          assert (outer + open)[..|outer + open| - 1] == outer + open[..|open| - 1];
        case _ =>
      }
      NestFrame(es[1..], next, outer);
    }
  }

  lemma BalancedConcat(a: seq<Event>, b: seq<Event>)
    requires Balanced(a) && Balanced(b)
    ensures Balanced(a + b)
  {
    NestConcat(a, b, []);
  }

  lemma {:induction false} BalancedScalars(es: seq<Event>)
    requires forall i :: 0 <= i < |es| ==> IsScalar(es[i])
    ensures Balanced(es)
    decreases |es|
  {
    if |es| > 0 {
      BalancedScalars(es[1..]);
    }
  }

  lemma BalancedWrap(open: Event, es: seq<Event>, close: Event)
    requires (open == StartObject && close == EndObject) || (open == StartArray && close == EndArray)
    requires Balanced(es)
    ensures Balanced([open] + es + [close])
  {
    var b := if open == StartObject then ObjectBracket else ArrayBracket;
    assert Nest([open], []) == Some([b]) by {
      assert [] + [b] == [b];
      if open == StartObject {
        assert Step([], open) == Some([b]);
      } else {
        assert Step([], open) == Some([b]);
      }
      assert [open][1..] == [];
    }
    NestFrame(es, [], [b]);
    assert [b] + [] == [b];
    NestConcat([open], es, []);
    assert Nest([open] + es, []) == Some([b]);
    assert Nest([close], [b]) == Some([]) by {
      assert Step([b], close) == Some([]);
      assert [close][1..] == [];
    }
    NestConcat([open] + es, [close], []);
  }

  /** One member of a JSON object: a key written with Writer::String, then its value. */
  datatype Member = Member(key: string, value: Event)

  /** The events for a run of members: key, value, key, value, ... */
  function MemberEvents(ms: seq<Member>): (es: seq<Event>)
    ensures |es| == 2 * |ms|
    ensures forall i :: 0 <= i < |ms| ==> es[2 * i] == Str(ms[i].key) && es[2 * i + 1] == ms[i].value
    decreases |ms|
  {
    if |ms| == 0 then []
    else [Str(ms[0].key), ms[0].value] + MemberEvents(ms[1..])
  }

  lemma {:induction false} MemberEventsConcat(a: seq<Member>, b: seq<Member>)
    ensures MemberEvents(a + b) == MemberEvents(a) + MemberEvents(b)
    decreases |a|
  {
    if |a| == 0 {
      assert a + b == b;
    } else {
      assert (a + b)[0] == a[0];
      assert (a + b)[1..] == a[1..] + b;
      MemberEventsConcat(a[1..], b);
    }
  }

  /** Reads a run of key/scalar-value members back; None when the events are not laid out that way. */
  function DecodeMembers(es: seq<Event>): Option<seq<Member>>
    decreases |es|
  {
    if |es| == 0 then Some([])
    else if |es| >= 2 && es[0].Str? && IsScalar(es[1]) then
      match DecodeMembers(es[2..])
      case None => None
      case Some(rest) => Some([Member(es[0].s, es[1])] + rest)
    else None
  }

  /** Members with scalar values decode back to themselves, keys and order intact. */
  lemma {:induction false} DecodeMemberEvents(ms: seq<Member>)
    requires forall i :: 0 <= i < |ms| ==> IsScalar(ms[i].value)
    ensures DecodeMembers(MemberEvents(ms)) == Some(ms)
    decreases |ms|
  {
    if |ms| > 0 {
      var es := MemberEvents(ms);
      assert es[2..] == MemberEvents(ms[1..]);
      DecodeMemberEvents(ms[1..]);
      assert [ms[0]] + ms[1..] == ms;
    }
  }

  lemma {:induction false} MemberEventsBalanced(ms: seq<Member>)
    requires forall i :: 0 <= i < |ms| ==> IsScalar(ms[i].value)
    ensures Balanced(MemberEvents(ms))
    decreases |ms|
  {
    if |ms| > 0 {
      BalancedScalars([Str(ms[0].key), ms[0].value]);
      MemberEventsBalanced(ms[1..]);
      BalancedConcat([Str(ms[0].key), ms[0].value], MemberEvents(ms[1..]));
    }
  }
}

=== FILE: json_feature.dfy ===
/**
 * JSONFeature: builds one GeoJSON Feature object (RFC 7946 section 3.2) as writer events,
 * `{"type": "Feature", ["id": ...,] "geometry": ..., "properties": {...}}`, and appends
 * its text plus one newline to the handler's buffer.
 */
module JsonFeature {
  import opened Wrappers
  import opened Decimal
  import opened Osm
  import opened JsonEvents
  import opened GeoJson

  /** The names of the seven reserved attributes, each the configured prefix plus a fixed suffix. */
  datatype AttributeNames = AttributeNames(
    id: string,
    objectType: string,
    version: string,
    changeset: string,
    uid: string,
    user: string,
    timestamp: string)

  const ReservedSuffixes: seq<string> := ["id", "type", "version", "changeset", "uid", "user", "timestamp"]

  function MakeAttributeNames(prefix: string): AttributeNames {
    AttributeNames(prefix + "id", prefix + "type", prefix + "version", prefix + "changeset",
                   prefix + "uid", prefix + "user", prefix + "timestamp")
  }

  /** The reserved names in the order add_properties writes them. */
  function ReservedNames(n: AttributeNames): seq<string> {
    [n.id, n.objectType, n.version, n.changeset, n.uid, n.user, n.timestamp]
  }

  /** Each name is the prefix followed by its suffix, in the fixed order. */
  lemma AttributeNamesLayout(prefix: string)
    ensures forall k :: 0 <= k < 7 ==>
      |ReservedNames(MakeAttributeNames(prefix))[k]| > |prefix|
      && ReservedNames(MakeAttributeNames(prefix))[k][..|prefix|] == prefix
      && ReservedNames(MakeAttributeNames(prefix))[k][|prefix|..] == ReservedSuffixes[k]
  {
    var names := ReservedNames(MakeAttributeNames(prefix));
    forall k | 0 <= k < 7
      ensures names[k] == prefix + ReservedSuffixes[k]
    {
    }
  }

  /** With an empty prefix the names are the bare suffixes. */
  lemma AttributeNamesEmptyPrefix()
    ensures ReservedNames(MakeAttributeNames("")) == ReservedSuffixes
  {
    var names := ReservedNames(MakeAttributeNames(""));
    forall k | 0 <= k < 7
      ensures names[k] == ReservedSuffixes[k]
    {
      assert names[k] == "" + ReservedSuffixes[k];
    }
  }

  lemma SuffixesDistinct()
    ensures forall i, j :: 0 <= i < j < 7 ==> ReservedSuffixes[i] != ReservedSuffixes[j]
  {
    // Same-length suffixes differ in their first character.
    assert ReservedSuffixes[1][0] != ReservedSuffixes[5][0];
  }

  lemma PrefixedDistinct(prefix: string, a: string, b: string)
    requires a != b
    ensures prefix + a != prefix + b
  {
    assert (prefix + a)[|prefix|..] == a;
    assert (prefix + b)[|prefix|..] == b;
  }

  /** Whatever the prefix, the seven reserved names are pairwise distinct. */
  lemma AttributeNamesDistinct(prefix: string)
    ensures forall i, j :: 0 <= i < j < 7 ==>
      ReservedNames(MakeAttributeNames(prefix))[i] != ReservedNames(MakeAttributeNames(prefix))[j]
  {
    var names := ReservedNames(MakeAttributeNames(prefix));
    SuffixesDistinct();
    forall i, j | 0 <= i < j < 7
      ensures names[i] != names[j]
    {
      assert names[i] == prefix + ReservedSuffixes[i];
      assert names[j] == prefix + ReservedSuffixes[j];
      PrefixedDistinct(prefix, ReservedSuffixes[i], ReservedSuffixes[j]);
    }
  }

  /** A JSONFeature under construction: the events written to its writer so far. */
  datatype Feature = Feature(events: seq<Event>)

  /** The constructor opens the feature object and writes its type member. */
  function NewFeature(): (f: Feature)
    ensures |f.events| == 3 && f.events[0] == StartObject
    ensures DecodeMembers(f.events[1..]) == Some([Member("type", Str("Feature"))])
  {
    var f := Feature([StartObject, Str("type"), Str("Feature")]);
    assert f.events[1..] == MemberEvents([Member("type", Str("Feature"))]);
    DecodeMemberEvents([Member("type", Str("Feature"))]);
    f
  }

  /** add_id: the feature's "id" member, the role letters followed by the decimal object id. */
  function AddId(f: Feature, prefix: string, id: int): (g: Feature)
    ensures f.events <= g.events
    ensures DecodeMembers(g.events[|f.events|..]) == Some([Member("id", Str(prefix + Show(id)))])
  {
    var g := Feature(f.events + [Str("id"), Str(prefix + Show(id))]);
    assert g.events[|f.events|..] == MemberEvents([Member("id", Str(prefix + Show(id)))]);
    DecodeMemberEvents([Member("id", Str(prefix + Show(id)))]);
    g
  }

  /** The four add_* geometry methods: each forwards to the geometry factory and writes nothing else. */
  function AddGeometry(f: Feature, g: Geometry): (h: Feature)
    ensures f.events <= h.events
    ensures DecodeGeometry(h.events[|f.events|..]) == Some(g)
  {
    var h := Feature(f.events + GeometryEvents(g));
    assert h.events[|f.events|..] == GeometryEvents(g);
    DecodeGeometryEvents(g);
    h
  }

  function AddPoint(f: Feature, xy: Coordinates): Feature { AddGeometry(f, Point(xy)) }

  function AddLinestring(f: Feature, pts: seq<Coordinates>): Feature { AddGeometry(f, LineString(pts)) }

  function AddPolygon(f: Feature, ring: seq<Coordinates>): Feature { AddGeometry(f, Polygon(ring)) }

  function AddMultipolygon(f: Feature, ps: seq<PolygonRings>): Feature { AddGeometry(f, MultiPolygon(ps)) }

  /** The value of the type attribute: areas report their origin, other objects their item type. */
  function TypeValue(o: OsmObject): string {
    match o
    case Area(_, fromWay) => if fromWay then "way" else "relation"
    case _ => Osm.TypeName(o)
  }

  /** The value of the id attribute: an area reports the id of the way or relation it was built from. */
  function IdValue(o: OsmObject, areaToObjectId: int -> int): int {
    if o.Area? then areaToObjectId(o.meta.id) else o.meta.id
  }

  function ReservedMembers(n: AttributeNames, o: OsmObject, areaToObjectId: int -> int): seq<Member> {
    [Member(n.id, Int64(IdValue(o, areaToObjectId))),
     Member(n.objectType, Str(TypeValue(o))),
     Member(n.version, Int(ToInt32(o.meta.version))),
     Member(n.changeset, Int(ToInt32(o.meta.changeset))),
     Member(n.uid, Int(ToInt32(o.meta.uid))),
     Member(n.user, Str(o.meta.user)),
     Member(n.timestamp, Int(ToInt32(o.meta.timestamp)))]
  }

  /** Key/value pairs written as string members, in their given order. */
  function StringMembers(tags: seq<Tag>): (ms: seq<Member>)
    ensures |ms| == |tags|
    ensures forall i :: 0 <= i < |tags| ==> ms[i] == Member(tags[i].key, Str(tags[i].value))
    decreases |tags|
  {
    if |tags| == 0 then [] else [Member(tags[0].key, Str(tags[0].value))] + StringMembers(tags[1..])
  }

  function PropertyMembers(n: AttributeNames, o: OsmObject, additions: seq<Tag>, areaToObjectId: int -> int): seq<Member> {
    ReservedMembers(n, o, areaToObjectId) + StringMembers(additions) + StringMembers(o.meta.tags)
  }

  /** The property members: reserved names in order, then the additions, then every tag in order. */
  lemma PropertyMembersLayout(n: AttributeNames, o: OsmObject, additions: seq<Tag>, areaToObjectId: int -> int)
    ensures var ms := PropertyMembers(n, o, additions, areaToObjectId);
      && |ms| == 7 + |additions| + |o.meta.tags|
      && (forall k :: 0 <= k < 7 ==> ms[k].key == ReservedNames(n)[k])
      && ms[0].value == Int64(if o.Area? then areaToObjectId(o.meta.id) else o.meta.id)
      && ms[1].value == Str(if o.Area? then (if o.fromWay then "way" else "relation") else Osm.TypeName(o))
      && ms[2].value == Int(ToInt32(o.meta.version)) && ms[3].value == Int(ToInt32(o.meta.changeset))
      && ms[4].value == Int(ToInt32(o.meta.uid)) && ms[5].value == Str(o.meta.user)
      && ms[6].value == Int(ToInt32(o.meta.timestamp))
      && (forall i :: 0 <= i < |additions| ==> ms[7 + i] == Member(additions[i].key, Str(additions[i].value)))
      && (forall i :: 0 <= i < |o.meta.tags| ==>
            ms[7 + |additions| + i] == Member(o.meta.tags[i].key, Str(o.meta.tags[i].value)))
  {
    var r := ReservedMembers(n, o, areaToObjectId);
    var a := StringMembers(additions);
    var t := StringMembers(o.meta.tags);
    var ms := r + a + t;
    assert ms == PropertyMembers(n, o, additions, areaToObjectId);
    assert forall k :: 0 <= k < 7 ==> ms[k] == r[k];
    forall i | 0 <= i < |additions|
      ensures ms[7 + i] == Member(additions[i].key, Str(additions[i].value))
    {
      assert ms[7 + i] == a[i];
    }
    forall i | 0 <= i < |o.meta.tags|
      ensures ms[7 + |additions| + i] == Member(o.meta.tags[i].key, Str(o.meta.tags[i].value))
    {
      assert ms[7 + |a| + i] == t[i];
    }
  }

  lemma PropertyMembersScalar(n: AttributeNames, o: OsmObject, additions: seq<Tag>, areaToObjectId: int -> int)
    ensures var ms := PropertyMembers(n, o, additions, areaToObjectId);
      forall i :: 0 <= i < |ms| ==> IsScalar(ms[i].value)
  {
    var ms := PropertyMembers(n, o, additions, areaToObjectId);
    var r := ReservedMembers(n, o, areaToObjectId);
    var a := StringMembers(additions);
    var t := StringMembers(o.meta.tags);
    assert ms == r + a + t;
    forall i | 0 <= i < |ms|
      ensures IsScalar(ms[i].value)
    {
      if i < |r| {
      } else if i < |r| + |a| {
        assert ms[i] == a[i - |r|];
      } else {
        assert ms[i] == t[i - |r| - |a|];
      }
    }
  }

  /** Reads back the member list of a `"properties": {...}` run of events. */
  function DecodeProperties(es: seq<Event>): Option<seq<Member>> {
    if |es| >= 3 && es[..2] == [Str("properties"), StartObject] && es[|es| - 1] == EndObject then
      DecodeMembers(es[2..|es| - 1])
    else None
  }

  /** `"properties": {members}`. */
  function PropertiesEvents(ms: seq<Member>): seq<Event> {
    [Str("properties"), StartObject] + MemberEvents(ms) + [EndObject]
  }

  /** The "properties" wrapper is transparent to decoding. */
  lemma DecodePropertiesOf(ms: seq<Member>)
    requires forall i :: 0 <= i < |ms| ==> IsScalar(ms[i].value)
    ensures DecodeProperties(PropertiesEvents(ms)) == Some(ms)
  {
    var es := PropertiesEvents(ms);
    assert es[2..|es| - 1] == MemberEvents(ms);
    DecodeMemberEvents(ms);
  }

  /**
   * add_properties: one "properties" object whose members read back as the property
   * members, so the layout of PropertyMembersLayout is what the writer receives.
   */
  function AddProperties(f: Feature, n: AttributeNames, o: OsmObject, additions: seq<Tag>, areaToObjectId: int -> int): (g: Feature)
    ensures f.events <= g.events
    ensures DecodeProperties(g.events[|f.events|..]) == Some(PropertyMembers(n, o, additions, areaToObjectId))
  {
    var ms := PropertyMembers(n, o, additions, areaToObjectId);
    var added := PropertiesEvents(ms);
    PropertyMembersScalar(n, o, additions, areaToObjectId);
    DecodePropertiesOf(ms);
    var g := Feature(f.events + added);
    assert g.events[|f.events|..] == added;
    g
  }

  /** The writer's byte rendering of an event stream (rapidjson's compact Writer). */
  type Renderer = seq<Event> -> string

  /**
   * append_to: closes the feature object, then appends its text and one newline to the
   * buffer, leaving what the buffer held before as a prefix.
   */
  function AppendTo(f: Feature, buffer: string, render: Renderer): (r: string)
    ensures buffer <= r
    ensures r[|buffer|..] == render(f.events + [EndObject]) + "\n"
    ensures '\n' !in render(f.events + [EndObject]) ==>
      forall k :: |buffer| <= k < |r| ==> (r[k] == '\n' <==> k == |r| - 1)
  {
    buffer + render(f.events + [EndObject]) + "\n"
  }

  /** The identifier add_id writes: role letters and the object id. */
  datatype FeatureId = FeatureId(role: string, id: int)

  /** Everything one handler call hands to JSONFeature for one output feature. */
  datatype FeatureSpec = FeatureSpec(
    fid: Option<FeatureId>,
    geometry: Geometry,
    source: OsmObject,
    additions: seq<Tag>)

  /** The events of the optional id member. */
  function IdEvents(fid: Option<FeatureId>): seq<Event> {
    if fid.Some? then [Str("id"), Str(fid.value.role + Show(fid.value.id))] else []
  }

  /**
   * The complete event stream append_to renders: the constructor's three events, the id
   * when ids are on, the geometry, the properties, then the close.
   */
  function FeatureEventsOf(fid: Option<FeatureId>, geo: seq<Event>, ms: seq<Member>): seq<Event> {
    [StartObject, Str("type"), Str("Feature")] + IdEvents(fid) + geo + PropertiesEvents(ms) + [EndObject]
  }

  /** The event stream of one feature handed over by a handler. */
  function FeatureEvents(n: AttributeNames, spec: FeatureSpec, areaToObjectId: int -> int): seq<Event> {
    FeatureEventsOf(spec.fid, GeometryEvents(spec.geometry), PropertyMembers(n, spec.source, spec.additions, areaToObjectId))
  }

  /** The handlers' call order on JSONFeature (constructor, add_id, add_*, add_properties, append_to) writes FeatureEvents. */
  lemma FeatureEventsByBuilder(n: AttributeNames, spec: FeatureSpec, areaToObjectId: int -> int)
    ensures var f0 := NewFeature();
      var f1 := if spec.fid.Some? then AddId(f0, spec.fid.value.role, spec.fid.value.id) else f0;
      var f2 := AddGeometry(f1, spec.geometry);
      var f3 := AddProperties(f2, n, spec.source, spec.additions, areaToObjectId);
      f3.events + [EndObject] == FeatureEvents(n, spec, areaToObjectId)
  {
    var f0 := NewFeature();
    var f1 := if spec.fid.Some? then AddId(f0, spec.fid.value.role, spec.fid.value.id) else f0;
    assert f1.events == f0.events + IdEvents(spec.fid);
    var f2 := AddGeometry(f1, spec.geometry);
    assert f2.events == f1.events + GeometryEvents(spec.geometry);
    var f3 := AddProperties(f2, n, spec.source, spec.additions, areaToObjectId);
    assert f3.events == f2.events + PropertiesEvents(PropertyMembers(n, spec.source, spec.additions, areaToObjectId));
  }

  /** The text a feature contributes to the buffer: its rendering and one newline. */
  function Record(n: AttributeNames, spec: FeatureSpec, areaToObjectId: int -> int, render: Renderer): string {
    render(FeatureEvents(n, spec, areaToObjectId)) + "\n"
  }

  /** A record is what append_to adds after the builder calls, whatever the buffer held before. */
  lemma RecordByAppendTo(n: AttributeNames, spec: FeatureSpec, areaToObjectId: int -> int, render: Renderer, buffer: string)
    ensures var f := AddProperties(AddGeometry(
        if spec.fid.Some? then AddId(NewFeature(), spec.fid.value.role, spec.fid.value.id) else NewFeature(),
        spec.geometry), n, spec.source, spec.additions, areaToObjectId);
      AppendTo(f, buffer, render) == buffer + Record(n, spec, areaToObjectId, render)
  {
    FeatureEventsByBuilder(n, spec, areaToObjectId);
    var f := AddProperties(AddGeometry(
        if spec.fid.Some? then AddId(NewFeature(), spec.fid.value.role, spec.fid.value.id) else NewFeature(),
        spec.geometry), n, spec.source, spec.additions, areaToObjectId);
    AppendToEvents(f, buffer, render, FeatureEvents(n, spec, areaToObjectId));
  }

  /** AppendTo for a feature whose closed event stream is already known, without unfolding the stream. */
  lemma AppendToEvents(f: Feature, buffer: string, render: Renderer, es: seq<Event>)
    requires f.events + [EndObject] == es
    ensures AppendTo(f, buffer, render) == buffer + (render(es) + "\n")
  {
  }

  lemma PropertiesBalanced(ms: seq<Member>)
    requires forall i :: 0 <= i < |ms| ==> IsScalar(ms[i].value)
    ensures Balanced(PropertiesEvents(ms))
  {
    MemberEventsBalanced(ms);
    BalancedWrap(StartObject, MemberEvents(ms), EndObject);
    BalancedScalars([Str("properties")]);
    BalancedConcat([Str("properties")], [StartObject] + MemberEvents(ms) + [EndObject]);
    assert PropertiesEvents(ms) == [Str("properties")] + ([StartObject] + MemberEvents(ms) + [EndObject]);
  }

  lemma FeaturePrefixBalanced(ids: seq<Event>, geo: seq<Event>, props: seq<Event>)
    requires forall i :: 0 <= i < |ids| ==> IsScalar(ids[i])
    requires Balanced(geo) && Balanced(props)
    ensures Balanced([StartObject, Str("type"), Str("Feature")] + ids + geo + props + [EndObject])
  {
    var head := [Str("type"), Str("Feature")] + ids;
    assert forall i :: 0 <= i < |head| ==> IsScalar(head[i]);
    BalancedScalars(head);
    BalancedConcat(head, geo);
    BalancedConcat(head + geo, props);
    BalancedWrap(StartObject, head + geo + props, EndObject);
    assert [StartObject] + (head + geo + props) + [EndObject]
        == [StartObject, Str("type"), Str("Feature")] + ids + geo + props + [EndObject];
  }

  /** Every bracket a feature opens is closed, in nesting order. */
  lemma FeatureBalanced(n: AttributeNames, spec: FeatureSpec, areaToObjectId: int -> int)
    ensures Balanced(FeatureEvents(n, spec, areaToObjectId))
  {
    var ms := PropertyMembers(n, spec.source, spec.additions, areaToObjectId);
    PropertyMembersScalar(n, spec.source, spec.additions, areaToObjectId);
    GeometryBalanced(spec.geometry);
    PropertiesBalanced(ms);
    FeaturePrefixBalanced(IdEvents(spec.fid), GeometryEvents(spec.geometry), PropertiesEvents(ms));
  }

  /**
   * A whole feature opens with the constructor's `{"type": "Feature"`, ends with the close,
   * and between the id and the close the geometry and the property members read back
   * from their places. (DecodeGeometryEvents: the events of every geometry decode.)
   */
  lemma FeatureEventsLayout(fid: Option<FeatureId>, geo: seq<Event>, geometry: Geometry, ms: seq<Member>)
    requires DecodeGeometry(geo) == Some(geometry)
    requires forall i :: 0 <= i < |ms| ==> IsScalar(ms[i].value)
    ensures var es := FeatureEventsOf(fid, geo, ms);
      var g := 3 + |IdEvents(fid)|;
      var p := g + |geo|;
      && es[..3] == [StartObject, Str("type"), Str("Feature")]
      && es[|es| - 1] == EndObject
      && p < |es|
      && DecodeGeometry(es[g..p]) == Some(geometry)
      && DecodeProperties(es[p..|es| - 1]) == Some(ms)
  {
    DecodePropertiesOf(ms);
    ConcatParts([StartObject, Str("type"), Str("Feature")], IdEvents(fid), geo, PropertiesEvents(ms), [EndObject]);
  }

  /** Where the parts of a five-part concatenation sit. */
  lemma ConcatParts(a: seq<Event>, b: seq<Event>, c: seq<Event>, d: seq<Event>, e: seq<Event>)
    requires |e| == 1
    ensures var s := a + b + c + d + e;
      && s[..|a|] == a
      && s[|s| - 1] == e[0]
      && s[|a| + |b|..|a| + |b| + |c|] == c
      && s[|a| + |b| + |c|..|s| - 1] == d
  {
    var s := a + b + c + d + e;
    assert s == ((a + b) + c) + (d + e);
    assert s[..|a|] == a;
  }
}

=== FILE: json_handler.dfy ===
/**
 * JSONHandler: the state every exporter shares. It holds the output buffer, the bytes
 * already flushed to standard output, the geometry error counter and the optional error
 * log, together with the configuration the exporters read (attribute names, whether
 * features carry ids, the node-list attribute name).
 */
module JsonHandler {
  import opened Wrappers
  import opened Decimal
  import opened Osm
  import opened JsonFeature
  import opened Text

  /** The buffer is flushed once it holds more than 1 MiB. */
  const FlushThreshold: nat := 1024 * 1024

  datatype Handler = Handler(
    buffer: string,
    output: string,
    errorCount: int,
    errorLog: Option<string>,
    names: AttributeNames,
    withId: bool,
    nodeAttr: string)

  /** Everything the handler has accepted so far: what is flushed, then what is still buffered. */
  function Written(h: Handler): string {
    h.output + h.buffer
  }

  /**
   * The constructor. An error log is opened only when an error file name is given. The
   * node-list attribute is part of the configuration the exporters pass in.
   */
  function Create(errorFile: string, attrPrefix: string, withId: bool, nodeAttr: string): (h: Handler)
    ensures Written(h) == "" && h.errorCount == 0
    ensures h.errorLog.Some? <==> errorFile != ""
    ensures h.errorLog.Some? ==> h.errorLog.value == ""
    ensures h.withId == withId && h.nodeAttr == nodeAttr
    ensures ReservedNames(h.names) == seq(7, k requires 0 <= k < 7 => attrPrefix + ReservedSuffixes[k])
  {
    Handler("", "", 0, if errorFile != "" then Some("") else None, MakeAttributeNames(attrPrefix), withId, nodeAttr)
  }

  /** flush_to_output: the whole buffer goes to standard output, in order, and the buffer empties. */
  function FlushToOutput(h: Handler): (r: Handler)
    ensures r.buffer == "" && Written(r) == Written(h)
    ensures h.output <= r.output
    ensures r.errorCount == h.errorCount && r.errorLog == h.errorLog
    ensures r.names == h.names && r.withId == h.withId && r.nodeAttr == h.nodeAttr
  {
    h.(output := h.output + h.buffer, buffer := "")
  }

  /** maybe_flush: flushes exactly when the buffer has grown past the threshold. */
  function MaybeFlush(h: Handler): (r: Handler)
    ensures Written(r) == Written(h)
    ensures |r.buffer| <= FlushThreshold
    ensures |h.buffer| > FlushThreshold <==> r.buffer == "" && r.output == Written(h) && h.buffer != ""
    ensures |h.buffer| <= FlushThreshold ==> r == h
  {
    if |h.buffer| > FlushThreshold then FlushToOutput(h) else h
  }

  /** The destructor flushes unconditionally: the output is everything ever written. */
  function Close(h: Handler): (r: Handler)
    ensures r.output == Written(h) && r.buffer == ""
  {
    FlushToOutput(h)
  }

  /** geometry_error_count. */
  function GeometryErrorCount(h: Handler): int {
    h.errorCount
  }

  /** The error-log line for one object: type letter, id, a colon, the error name, a newline. */
  function ErrorLine(o: OsmObject, e: GeomError): string {
    [TypeChar(o)] + Show(o.meta.id) + ":" + ErrorName(e) + "\n"
  }

  /** report_geometry_problem: one more error; with a log, one more line in it; nothing else changes. */
  function ReportGeometryProblem(h: Handler, o: OsmObject, e: GeomError): (r: Handler)
    ensures r.errorCount == h.errorCount + 1
    ensures r.buffer == h.buffer && r.output == h.output
    ensures r.names == h.names && r.withId == h.withId && r.nodeAttr == h.nodeAttr
    ensures r.errorLog.Some? <==> h.errorLog.Some?
    ensures h.errorLog.Some? ==>
      && h.errorLog.value <= r.errorLog.value
      && ParseErrorLine(r.errorLog.value[|h.errorLog.value|..]) == Some(ErrorRecord(TypeChar(o), o.meta.id, ErrorName(e)))
  {
    var line := ErrorLine(o, e);
    ParseErrorLineOf(TypeChar(o), o.meta.id, ErrorName(e));
    var log := if h.errorLog.Some? then Some(h.errorLog.value + line) else None;
    if h.errorLog.Some? then
      assert log.value[|h.errorLog.value|..] == line;
      h.(errorCount := h.errorCount + 1, errorLog := log)
    else
      h.(errorCount := h.errorCount + 1)
  }

  /** What a reader of the error file recovers from one line. */
  datatype ErrorRecord = ErrorRecord(typeChar: char, id: int, error: string)

  /** Splits an error-log line back into its three fields. */
  function ParseErrorLine(line: string): Option<ErrorRecord> {
    if |line| < 2 || line[|line| - 1] != '\n' then None
    else
      var body := line[1..|line| - 1];
      var colon := IndexOf(body, ':');
      if colon.None? then None
      else
        var id := Parse(body[..colon.value]);
        if id.None? then None
        else Some(ErrorRecord(line[0], id.value, body[colon.value + 1..]))
  }

  /** Every error line reads back as the object's type letter, its id and the error name. */
  lemma ParseErrorLineOf(typeChar: char, id: int, error: string)
    ensures ParseErrorLine([typeChar] + Show(id) + ":" + error + "\n") == Some(ErrorRecord(typeChar, id, error))
  {
    var line := [typeChar] + Show(id) + ":" + error + "\n";
    var body := line[1..|line| - 1];
    assert body == Show(id) + ":" + error;
    var k := |Show(id)|;
    assert body[..k] == Show(id);
    assert ':' !in body[..k];
    IndexOfFirst(body, ':', k);
    ParseShow(id);
    assert body[k + 1..] == error;
  }

  /** What one handler call decided for one object. */
  datatype Emission<R> =
      /** An early return: nothing is written and maybe_flush is not reached. */
    | Skipped
      /**
       * The features appended with append_to, then the error (if any) caught while
       * building the next feature, then maybe_flush.
       */
    | Done(records: seq<R>, failure: Option<GeomError>)

  /** The collaborators append_to and add_properties rely on. */
  datatype Output = Output(render: Renderer, areaToObjectId: int -> int)

  /** A decision about features turned into the buffer text append_to writes for each. */
  function RenderEmission(d: Emission<FeatureSpec>, names: AttributeNames, out: Output): (e: Emission<string>)
    ensures d.Skipped? <==> e.Skipped?
    ensures d.Done? ==> e.failure == d.failure && |e.records| == |d.records|
    ensures d.Done? ==> forall i :: 0 <= i < |d.records| ==>
      e.records[i] == Record(names, d.records[i], out.areaToObjectId, out.render)
  {
    match d
    case Skipped => Skipped
    case Done(features, failure) =>
      Done(seq(|features|, i requires 0 <= i < |features| => Record(names, features[i], out.areaToObjectId, out.render)), failure)
  }

  /** The concatenation of some records, in order. */
  function Concat(records: seq<string>): string
    decreases |records|
  {
    if records == [] then "" else records[0] + Concat(records[1..])
  }

  /** Appends each record, in order. */
  function AppendAll(h: Handler, records: seq<string>): (r: Handler)
    ensures r == h.(buffer := h.buffer + Concat(records))
    decreases |records|
  {
    if records == [] then h
    else
      var h1 := h.(buffer := h.buffer + records[0]);
      assert (h.buffer + records[0]) + Concat(records[1..]) == h.buffer + Concat(records);
      AppendAll(h1, records[1..])
  }

  /** The effect of one handler call on the shared state. */
  function ApplyEmission(h: Handler, o: OsmObject, e: Emission<string>): (r: Handler)
    ensures e.Skipped? ==> r == h
    ensures e.Done? ==> Written(r) == Written(h) + Concat(e.records) && |r.buffer| <= FlushThreshold
    ensures e.Done? ==> r.errorCount == h.errorCount + (if e.failure.Some? then 1 else 0)
    ensures e.Done? && h.errorLog.Some? && e.failure.Some? ==>
      r.errorLog == Some(h.errorLog.value + ErrorLine(o, e.failure.value))
    ensures e.Done? && e.failure.None? ==> r.errorLog == h.errorLog
    ensures r.errorLog.Some? <==> h.errorLog.Some?
    ensures e.Done? ==> var b := h.buffer + Concat(e.records);
      if |b| > FlushThreshold then r.output == h.output + b && r.buffer == "" else r.output == h.output && r.buffer == b
    ensures r.names == h.names && r.withId == h.withId && r.nodeAttr == h.nodeAttr
  {
    match e
    case Skipped => h
    case Done(records, failure) =>
      var h1 := AppendAll(h, records);
      var h2 := if failure.Some? then ReportGeometryProblem(h1, o, failure.value) else h1;
      MaybeFlush(h2)
  }

  /** One processed object and the handler's decision for it. */
  datatype Step = Step(source: OsmObject, emission: Emission<string>)

  function RunSteps(h: Handler, steps: seq<Step>): (r: Handler)
    ensures r.names == h.names
    decreases |steps|
  {
    if steps == [] then h else RunSteps(ApplyEmission(h, steps[0].source, steps[0].emission), steps[1..])
  }

  /** All the record text a run appends, in input order. */
  function RunRecords(steps: seq<Step>): string
    decreases |steps|
  {
    if steps == [] then ""
    else
      var e := steps[0].emission;
      (if e.Done? then Concat(e.records) else "") + RunRecords(steps[1..])
  }

  /** The number of steps whose handler call caught an error. */
  function Failures(steps: seq<Step>): nat
    decreases |steps|
  {
    if steps == [] then 0
    else (if steps[0].emission.Done? && steps[0].emission.failure.Some? then 1 else 0) + Failures(steps[1..])
  }

  /**
   * Over a whole run, followed by the destructor: the output is every feature record in
   * input order, and the error count grows by one per caught error.
   */
  lemma {:induction false} RunOutput(h: Handler, steps: seq<Step>)
    ensures Written(RunSteps(h, steps)) == Written(h) + RunRecords(steps)
    ensures RunSteps(h, steps).errorCount == h.errorCount + Failures(steps)
    ensures Close(RunSteps(h, steps)).output == Written(h) + RunRecords(steps)
    decreases |steps|
  {
    if steps != [] {
      var e := steps[0].emission;
      var h1 := ApplyEmission(h, steps[0].source, e);
      RunOutput(h1, steps[1..]);
    }
  }
}

=== FILE: minjur.dfy ===
/**
 * JSONNoAreaHandler, the handler of the minjur exporter: untagged nodes and ways with
 * fewer than two nodes are dropped, an optional tile list restricts the output to the
 * objects touching those tiles, and each remaining way becomes either a linestring or,
 * when polygon creation is on and the way is closed with an area tag, a polygon.
 */
module Minjur {
  import opened Wrappers
  import opened Decimal
  import opened Osm
  import opened TagsFilter
  import opened PolygonRules
  import opened GeoJson
  import opened JsonFeature
  import opened JsonHandler
  import opened Text
  import opened Exporter

  /** osmium::geom::Tile: zoom level, column and row. */
  datatype MapTile = MapTile(z: nat, x: nat, y: nat)

  /**
   * osmium's tile arithmetic is not modelled: this gives the column and row of a valid
   * location's tile at a zoom level.
   */
  type TileFunction = (nat, Location) -> (nat, nat)

  /** The collaborators a JSONNoAreaHandler call relies on. */
  datatype Env = Env(tileXY: TileFunction, factory: Factory, out: Output)

  /** The handler's own configuration, fixed by its constructor. */
  datatype Config = Config(zoom: nat, createPolygons: bool, tiles: set<MapTile>, filter: Filter)

  /**
   * The constructor: the JSONHandler part, and the area filter. The filter is the flat
   * rule list; AddBlocksAppends shows it is what `m_filter(false)` followed by the
   * constructor's `add` calls builds.
   */
  function NewNoAreaHandler(zoom: nat, errorFile: string, attrPrefix: string, withId: bool, createPolygons: bool,
                            tiles: set<MapTile>, nodeAttr: string): (r: (Config, Handler))
    ensures r.0.zoom == zoom && r.0.createPolygons == createPolygons && r.0.tiles == tiles
    ensures forall t :: Apply(r.0.filter, t) == BlockVerdict(PolygonBlocks, t)
    ensures r.1 == Create(errorFile, attrPrefix, withId, nodeAttr)
  {
    FlattenVerdicts(PolygonBlocks);
    (Config(zoom, createPolygons, tiles, Filter(false, FlattenBlocks(PolygonBlocks))), Create(errorFile, attrPrefix, withId, nodeAttr))
  }

  /**
   * read_tiles_list: no file name gives the empty list. Reading a named file is not
   * modelled; fileTiles stands for what its loop reads.
   */
  function ReadTilesList(filename: string, fileTiles: set<MapTile>): (tiles: set<MapTile>)
    ensures filename == "" ==> tiles == {}
  {
    if filename == "" then {} else fileTiles
  }

  /** `osmium::geom::Tile{zoom, location}`: reading an invalid location throws invalid_location. */
  function TileAt(tileXY: TileFunction, zoom: nat, loc: Location): (r: Result<MapTile, GeomError>)
    ensures r.Ok? <==> loc.Valid()
    ensures r.Ok? ==> r.value.z == zoom
    ensures r.Err? ==> r.error == InvalidLocation
  {
    if loc.Valid() then
      var xy := tileXY(zoom, loc);
      Ok(MapTile(zoom, xy.0, xy.1))
    else Err(InvalidLocation)
  }

  /** A tile lookup that succeeded and found a listed tile. */
  predicate Hit(r: Result<MapTile, GeomError>, tiles: set<MapTile>) {
    r.Ok? && r.value in tiles
  }

  /** linestring_and_or_polygon: a closed way with some area tag is a polygon, anything else a linestring. */
  function LinestringAndOrPolygon(filter: Filter, way: OsmObject): (r: (bool, bool))
    requires way.Way? && |way.refs| >= 1
    ensures r.0 != r.1
    ensures !IsClosed(way.refs) ==> r == (true, false)
    ensures r.1 <==> IsClosed(way.refs) && exists i :: 0 <= i < |way.meta.tags| && Apply(filter, way.meta.tags[i])
  {
    if IsClosed(way.refs) && MatchAnyOf(way.meta.tags, filter) then (false, true) else (true, false)
  }

  /** With the constructor's rules, a closed way is a polygon iff the first block for some tag's key admits its value. */
  lemma PolygonByBlocks(cfg: Config, way: OsmObject)
    requires forall t :: Apply(cfg.filter, t) == BlockVerdict(PolygonBlocks, t)
    requires way.Way? && |way.refs| >= 1
    ensures LinestringAndOrPolygon(cfg.filter, way).1
      <==> IsClosed(way.refs) && exists i :: 0 <= i < |way.meta.tags| && BlockVerdict(PolygonBlocks, way.meta.tags[i])
  {
    var tags := way.meta.tags;
    if IsClosed(way.refs) && exists i :: 0 <= i < |tags| && BlockVerdict(PolygonBlocks, tags[i]) {
      var i :| 0 <= i < |tags| && BlockVerdict(PolygonBlocks, tags[i]);
      assert Apply(cfg.filter, tags[i]);
    }
  }

  /** area=no is not an area tag: a closed way tagged only area=no stays a linestring. */
  lemma AreaNoAloneIsLine(cfg: Config, way: OsmObject)
    requires forall t :: Apply(cfg.filter, t) == BlockVerdict(PolygonBlocks, t)
    requires way.Way? && |way.refs| >= 1 && IsClosed(way.refs) && way.meta.tags == [Tag("area", "no")]
    ensures LinestringAndOrPolygon(cfg.filter, way) == (true, false)
  {
    KeyedBlockDecides(PolygonBlocks, 2, Tag("area", "no"));
    assert forall i :: 0 <= i < |way.meta.tags| ==> way.meta.tags[i] == Tag("area", "no");
  }

  /** ...but it does not veto another tag: with building=yes as well, the closed way is a polygon. */
  lemma AreaNoDoesNotVeto(cfg: Config, way: OsmObject)
    requires forall t :: Apply(cfg.filter, t) == BlockVerdict(PolygonBlocks, t)
    requires way.Way? && |way.refs| >= 1 && IsClosed(way.refs)
    requires way.meta.tags == [Tag("area", "no"), Tag("building", "yes")]
    ensures LinestringAndOrPolygon(cfg.filter, way) == (false, true)
  {
    assert "yes"[0] !in {'e', 'n'};
    assert "yes" !in PolygonBlocks[4].exceptions;
    KeyedBlockDecides(PolygonBlocks, 4, Tag("building", "yes"));
    assert Apply(cfg.filter, way.meta.tags[1]);
  }

  /** The node ids of a way, in order, in decimal, separated by commas. */
  function JoinIds(refs: seq<NodeRef>): (s: string)
    ensures s == "" <==> refs == []
    decreases |refs|
  {
    if |refs| == 0 then ""
    else if |refs| == 1 then Show(refs[0].ref)
    else JoinIds(refs[..|refs| - 1]) + "," + Show(refs[|refs| - 1].ref)
  }

  /** The `appendnode` loop: a comma before every id except when nothing has been written yet. */
  method NodeIdList(refs: seq<NodeRef>) returns (nodes: string)
    ensures nodes == JoinIds(refs)
  {
    nodes := "";
    var i := 0;
    while i < |refs|
      invariant 0 <= i <= |refs|
      invariant nodes == JoinIds(refs[..i])
    {
      assert refs[..i + 1][..i] == refs[..i];
      if |nodes| > 0 {
        nodes := nodes + ",";
      }
      nodes := nodes + Show(refs[i].ref);
      i := i + 1;
    }
    assert refs[..|refs|] == refs;
  }

  /** The decimal form of each node id, in way order. */
  function IdTexts(refs: seq<NodeRef>): (ts: seq<string>)
    ensures |ts| == |refs|
  {
    seq(|refs|, i requires 0 <= i < |refs| => Show(refs[i].ref))
  }

  lemma ShowHasNoComma(i: int)
    ensures ',' !in Show(i)
  {
    var s := Show(i);
    assert forall k :: 0 <= k < |s| ==> s[k] != ',';
  }

  /** Splitting the attribute at its commas gives back the ids' decimal forms, one per node, in order. */
  lemma {:induction false} JoinIdsSplit(refs: seq<NodeRef>)
    requires |refs| >= 1
    ensures Split(JoinIds(refs), ',') == IdTexts(refs)
    decreases |refs|
  {
    var last := Show(refs[|refs| - 1].ref);
    ShowHasNoComma(refs[|refs| - 1].ref);
    SplitNoSeparator(last, ',');
    if |refs| > 1 {
      var init := refs[..|refs| - 1];
      JoinIdsSplit(init);
      SplitJoin(JoinIds(init), last, ',');
      IdTextsSnoc(refs);
    }
  }

  lemma IdTextsSnoc(refs: seq<NodeRef>)
    requires |refs| >= 1
    ensures IdTexts(refs) == IdTexts(refs[..|refs| - 1]) + [Show(refs[|refs| - 1].ref)]
  {
  }

  /** Each comma-separated piece reads back as the node id at that position. */
  lemma JoinIdsParse(refs: seq<NodeRef>, i: nat)
    requires i < |refs|
    ensures var pieces := Split(JoinIds(refs), ','); |pieces| == |refs| && Parse(pieces[i]) == Some(refs[i].ref)
  {
    JoinIdsSplit(refs);
    ParseShow(refs[i].ref);
  }

  /** One comma fewer than there are nodes: none leading, none trailing, none doubled. */
  lemma {:induction false} JoinIdsCommas(refs: seq<NodeRef>)
    requires |refs| >= 1
    ensures Count(JoinIds(refs), ',') == |refs| - 1
    decreases |refs|
  {
    var last := Show(refs[|refs| - 1].ref);
    ShowHasNoComma(refs[|refs| - 1].ref);
    CountAbsent(last, ',');
    if |refs| > 1 {
      var init := refs[..|refs| - 1];
      JoinIdsCommas(init);
      CountConcat(JoinIds(init) + ",", last, ',');
      CountConcat(JoinIds(init), ",", ',');
    }
  }

  /** Every comma-separated piece of the joined list reads back as the node id at its position. */
  lemma JoinIdsReadBack(refs: seq<NodeRef>)
    requires refs != []
    ensures var pieces := Split(JoinIds(refs), ',');
      |pieces| == |refs| && forall i :: 0 <= i < |refs| ==> Parse(pieces[i]) == Some(refs[i].ref)
  {
    JoinIdsParse(refs, 0);
    forall i | 0 <= i < |refs|
      ensures Parse(Split(JoinIds(refs), ',')[i]) == Some(refs[i].ref)
    {
      JoinIdsParse(refs, i);
    }
  }

  /**
   * The extra property a way's features carry when a node-list attribute is configured:
   * one property under that name whose value splits at commas into the way's node ids.
   */
  function NodeAttrAdditions(nodeAttr: string, refs: seq<NodeRef>): (additions: seq<Tag>)
    ensures nodeAttr == "" <==> additions == []
    ensures nodeAttr != "" ==> |additions| == 1 && additions[0].key == nodeAttr
    ensures nodeAttr != "" ==> (additions[0].value == "" <==> refs == [])
    ensures nodeAttr != "" && refs != [] ==>
      var pieces := Split(additions[0].value, ',');
      |pieces| == |refs| && forall i :: 0 <= i < |refs| ==> Parse(pieces[i]) == Some(refs[i].ref)
  {
    if nodeAttr == "" then []
    else if refs == [] then [Tag(nodeAttr, JoinIds(refs))]
    else JoinIdsReadBack(refs); [Tag(nodeAttr, JoinIds(refs))]
  }

  /**
   * The keep loop over a way's nodes: true at the first node whose tile is listed, false
   * when none is; an invalid location reached first throws invalid_location.
   */
  function ScanTiles(tileXY: TileFunction, zoom: nat, tiles: set<MapTile>, refs: seq<NodeRef>): (r: Result<bool, GeomError>)
    ensures r.Err? ==> r.error == InvalidLocation
    ensures r.Err? ==> exists i :: 0 <= i < |refs| && !refs[i].location.Valid() && NoHitBefore(tileXY, zoom, tiles, refs, i)
    ensures r.Ok? ==> (r.value <==> exists i :: 0 <= i < |refs| && Hit(TileAt(tileXY, zoom, refs[i].location), tiles))
    ensures (forall i :: 0 <= i < |refs| ==> refs[i].location.Valid()) ==> r.Ok?
    ensures (exists i :: 0 <= i < |refs| && !refs[i].location.Valid() && NoHitBefore(tileXY, zoom, tiles, refs, i)) ==> r.Err?
    decreases |refs|
  {
    if refs == [] then Ok(false)
    else
      var first := TileAt(tileXY, zoom, refs[0].location);
      if first.Err? then
        assert NoHitBefore(tileXY, zoom, tiles, refs, 0);
        Err(first.error)
      else if first.value in tiles then Ok(true)
      else
        var rest := ScanTiles(tileXY, zoom, tiles, refs[1..]);
        assert forall i :: 1 <= i < |refs| ==> refs[i] == refs[1..][i - 1];
        if rest.Err? then
          var k :| 0 <= k < |refs[1..]| && !refs[1..][k].location.Valid() && NoHitBefore(tileXY, zoom, tiles, refs[1..], k);
          assert !refs[k + 1].location.Valid() && NoHitBefore(tileXY, zoom, tiles, refs, k + 1);
          rest
        else if rest.value then
          var k :| 0 <= k < |refs[1..]| && Hit(TileAt(tileXY, zoom, refs[1..][k].location), tiles);
          assert Hit(TileAt(tileXY, zoom, refs[k + 1].location), tiles);
          rest
        else rest
  }

  /** No node before position i lies in a listed tile. */
  predicate NoHitBefore(tileXY: TileFunction, zoom: nat, tiles: set<MapTile>, refs: seq<NodeRef>, i: nat)
    requires i <= |refs|
  {
    forall j :: 0 <= j < i ==> !Hit(TileAt(tileXY, zoom, refs[j].location), tiles)
  }

  /**
   * A way's features, inside way()'s single try block: the linestring, then the polygon.
   * An error thrown while building the linestring ends the block, so the polygon is then
   * not attempted.
   */
  function WayFeatures(lp: (bool, bool), factory: Factory, withId: bool, way: OsmObject, additions: seq<Tag>): (e: Emission<FeatureSpec>)
    requires way.Way?
    ensures e.Done?
    ensures |e.records| <= (if lp.0 then 1 else 0) + (if lp.1 then 1 else 0)
    ensures forall i :: 0 <= i < |e.records| ==> e.records[i].source == way && e.records[i].additions == additions
    ensures forall i :: 0 <= i < |e.records| ==>
      (e.records[i].geometry.LineString? || e.records[i].geometry.Polygon?)
      && (e.records[i].geometry.Polygon? ==> lp.1)
      && (e.records[i].geometry.LineString? ==> lp.0)
      && e.records[i].fid == FeatureIdFor(withId, if e.records[i].geometry.Polygon? then "wp" else "wl", way.meta.id)
    ensures var ls := factory.linestring(way.refs); var pg := factory.polygon(way.refs);
      && (lp.0 && ls.Err? ==> e == Done([], Some(ls.error)))
      && (lp.0 && ls.Ok? ==> |e.records| >= 1 && e.records[0].geometry == LineString(ls.value))
      && (lp.1 && (lp.0 ==> ls.Ok?) && pg.Err? ==> e.failure == Some(pg.error))
      && (lp.1 && (lp.0 ==> ls.Ok?) && pg.Ok? ==> |e.records| >= 1 && e.records[|e.records| - 1].geometry == Polygon(pg.value))
      && (e.failure.None? <==> (lp.0 ==> ls.Ok?) && (lp.1 ==> pg.Ok?))
      && |e.records| == (if lp.0 && ls.Ok? then 1 else 0) + (if lp.1 && (lp.0 ==> ls.Ok?) && pg.Ok? then 1 else 0)
  {
    var line := if lp.0 then WayPart(false, factory, withId, way, additions) else Done([], None);
    if line.failure.Some? || !lp.1 then line
    else
      var poly := WayPart(true, factory, withId, way, additions);
      var records := line.records + poly.records;
      assert forall i :: 0 <= i < |records| ==> records[i] == if i < |line.records| then line.records[i] else poly.records[i - |line.records|];
      Done(records, poly.failure)
  }

  /**
   * One of the two output steps in way()'s try block: the linestring (id role "wl") or the
   * polygon (id role "wp"). The factory's geometry becomes one feature of the way, or the
   * factory's error is what the block catches.
   */
  function WayPart(polygon: bool, factory: Factory, withId: bool, way: OsmObject, additions: seq<Tag>): (e: Emission<FeatureSpec>)
    requires way.Way?
    ensures e.Done? && |e.records| <= 1
    ensures forall i :: 0 <= i < |e.records| ==>
      && e.records[i].source == way && e.records[i].additions == additions
      && (if polygon then e.records[i].geometry.Polygon? else e.records[i].geometry.LineString?)
      && e.records[i].fid == FeatureIdFor(withId, if polygon then "wp" else "wl", way.meta.id)
    ensures var made := if polygon then factory.polygon(way.refs) else factory.linestring(way.refs);
      && (made.Err? ==> e == Done([], Some(made.error)))
      && (made.Ok? ==>
            e.failure.None? && |e.records| == 1 && e.records[0].geometry == (if polygon then Polygon(made.value) else LineString(made.value)))
  {
    if polygon then OneFeature(withId, "wp", way, AsGeometry(factory.polygon(way.refs), (ring: seq<Coordinates>) => Polygon(ring)), additions)
    else OneFeature(withId, "wl", way, AsGeometry(factory.linestring(way.refs), (pts: seq<Coordinates>) => LineString(pts)), additions)
  }

  /** node(): what JSONNoAreaHandler does with one node. */
  function OnNode(cfg: Config, env: Env, withId: bool, node: OsmObject): (e: Emission<FeatureSpec>)
    requires node.Node?
    ensures node.meta.tags == [] ==> e.Skipped?
    ensures node.meta.tags != [] && !node.location.Valid() ==> e == Done([], Some(InvalidLocation))
    ensures node.meta.tags != [] && node.location.Valid() ==>
      (e.Skipped? <==> cfg.tiles != {} && !Hit(TileAt(env.tileXY, cfg.zoom, node.location), cfg.tiles))
    ensures e.Done? && node.location.Valid() ==> e == PointFeature(withId, node)
  {
    if node.meta.tags == [] then Skipped
    else
      var tile := TileAt(env.tileXY, cfg.zoom, node.location);
      if tile.Err? then Done([], Some(tile.error))
      else if cfg.tiles != {} && tile.value !in cfg.tiles then Skipped
      else PointFeature(withId, node)
  }

  /** way(): what JSONNoAreaHandler does with one way. */
  function OnWay(cfg: Config, env: Env, withId: bool, nodeAttr: string, way: OsmObject): (e: Emission<FeatureSpec>)
    requires way.Way?
    ensures |way.refs| <= 1 ==> e.Skipped?
    ensures e.Done? ==> |e.records| <= 1
    ensures e.Done? ==> forall i :: 0 <= i < |e.records| ==>
      && e.records[i].additions == NodeAttrAdditions(nodeAttr, way.refs)
      && (e.records[i].geometry.Polygon? <==> cfg.createPolygons && IsClosed(way.refs) && MatchAnyOf(way.meta.tags, cfg.filter))
    ensures |way.refs| > 1 && cfg.tiles != {} ==>
      var keep := ScanTiles(env.tileXY, cfg.zoom, cfg.tiles, way.refs);
      && (keep == Ok(false) ==> e.Skipped?)
      && (keep.Err? ==> e == Done([], Some(InvalidLocation)))
    ensures |way.refs| > 1 && (cfg.tiles == {} || ScanTiles(env.tileXY, cfg.zoom, cfg.tiles, way.refs) == Ok(true)) ==>
      var poly := cfg.createPolygons && IsClosed(way.refs) && MatchAnyOf(way.meta.tags, cfg.filter);
      var made := if poly then env.factory.polygon(way.refs) else env.factory.linestring(way.refs);
      && (made.Err? ==> e == Done([], Some(made.error)))
      && (made.Ok? ==> e == Done([FeatureSpec(FeatureIdFor(withId, if poly then "wp" else "wl", way.meta.id),
                                              if poly then Polygon(made.value) else LineString(made.value),
                                              way, NodeAttrAdditions(nodeAttr, way.refs))], None))
  {
    if |way.refs| <= 1 then Skipped
    else
      var keep := if cfg.tiles == {} then Ok(true) else ScanTiles(env.tileXY, cfg.zoom, cfg.tiles, way.refs);
      if keep.Err? then Done([], Some(keep.error))
      else if !keep.value then Skipped
      else
        var lp := if cfg.createPolygons then LinestringAndOrPolygon(cfg.filter, way) else (true, false);
        WayFeatures(lp, env.factory, withId, way, NodeAttrAdditions(nodeAttr, way.refs))
  }

  /** One node through the handler, including the shared buffer and error accounting. */
  function Node(cfg: Config, env: Env, h: Handler, node: OsmObject): Handler
    requires node.Node?
  {
    Handle(h, node, OnNode(cfg, env, h.withId, node), env.out)
  }

  /** One way through the handler, including the shared buffer and error accounting. */
  function Way(cfg: Config, env: Env, h: Handler, way: OsmObject): Handler
    requires way.Way?
  {
    Handle(h, way, OnWay(cfg, env, h.withId, h.nodeAttr, way), env.out)
  }

  /** An untagged node leaves the handler exactly as it was: no feature, no error, no flush. */
  lemma UntaggedNodeIgnored(cfg: Config, env: Env, h: Handler, node: OsmObject)
    requires node.Node? && node.meta.tags == []
    ensures Node(cfg, env, h, node) == h
  {
  }

  /** A way with fewer than two nodes leaves the handler exactly as it was. */
  lemma ShortWayIgnored(cfg: Config, env: Env, h: Handler, way: OsmObject)
    requires way.Way? && |way.refs| <= 1
    ensures Way(cfg, env, h, way) == h
  {
  }

  /**
   * A tagged node with an invalid location is counted as an invalid_location error and
   * logged; nothing is appended to the output, and processing goes on.
   */
  lemma InvalidNodeCounted(cfg: Config, env: Env, h: Handler, node: OsmObject)
    requires node.Node? && node.meta.tags != [] && !node.location.Valid()
    ensures Written(Node(cfg, env, h, node)) == Written(h)
    ensures Node(cfg, env, h, node).errorCount == h.errorCount + 1
    ensures h.errorLog.Some? ==>
      Node(cfg, env, h, node).errorLog == Some(h.errorLog.value + ErrorLine(node, InvalidLocation))
  {
    assert Concat([]) == "";
  }

  /** Without a tile list every tagged node with a valid location becomes one Point feature at (lon, lat). */
  lemma NodeWithoutTileList(cfg: Config, env: Env, withId: bool, node: OsmObject)
    requires node.Node? && node.meta.tags != [] && node.location.Valid() && cfg.tiles == {}
    ensures var e := OnNode(cfg, env, withId, node);
      && e.Done? && e.failure.None? && |e.records| == 1
      && e.records[0].geometry == Point(Coordinates(node.location.Lon(), node.location.Lat()))
      && e.records[0].fid == FeatureIdFor(withId, "n", node.meta.id)
  {
  }

  /**
   * Tiles are compared with their zoom level: a tile list holding only tiles of another
   * zoom than the handler's drops every node.
   */
  lemma OtherZoomTilesDropNodes(cfg: Config, env: Env, withId: bool, node: OsmObject)
    requires node.Node? && cfg.tiles != {}
    requires forall t :: t in cfg.tiles ==> t.z != cfg.zoom
    ensures var e := OnNode(cfg, env, withId, node); e.Done? ==> e.records == []
  {
    var tile := TileAt(env.tileXY, cfg.zoom, node.location);
    if tile.Ok? {
      assert tile.value !in cfg.tiles;
    }
  }

  /** With a tile list and valid locations, a way is kept iff one of its nodes lies in a listed tile. */
  lemma WayKeptIffTileHit(cfg: Config, env: Env, withId: bool, nodeAttr: string, way: OsmObject)
    requires way.Way? && |way.refs| > 1 && cfg.tiles != {}
    requires forall i :: 0 <= i < |way.refs| ==> way.refs[i].location.Valid()
    ensures OnWay(cfg, env, withId, nodeAttr, way).Skipped?
      <==> forall i :: 0 <= i < |way.refs| ==> !Hit(TileAt(env.tileXY, cfg.zoom, way.refs[i].location), cfg.tiles)
  {
  }

  /**
   * With polygon creation off, every feature of a way is a linestring, with the id role
   * "wl"; a kept way whose linestring the factory builds is written as exactly that one
   * feature, closed or not.
   */
  lemma WaysWithoutPolygons(cfg: Config, env: Env, withId: bool, nodeAttr: string, way: OsmObject)
    requires way.Way? && !cfg.createPolygons
    ensures var e := OnWay(cfg, env, withId, nodeAttr, way);
      e.Done? ==> forall i :: 0 <= i < |e.records| ==>
        e.records[i].geometry.LineString? && e.records[i].fid == FeatureIdFor(withId, "wl", way.meta.id)
    ensures (&& |way.refs| > 1
             && (cfg.tiles == {} || ScanTiles(env.tileXY, cfg.zoom, cfg.tiles, way.refs) == Ok(true))
             && env.factory.linestring(way.refs).Ok?) ==>
      OnWay(cfg, env, withId, nodeAttr, way)
        == Done([FeatureSpec(FeatureIdFor(withId, "wl", way.meta.id), LineString(env.factory.linestring(way.refs).value),
                             way, NodeAttrAdditions(nodeAttr, way.refs))], None)
  {
  }
}

=== FILE: minjur_mp.dfy ===
/**
 * JSONAreaHandler, the handler of the minjur-mp exporter: tagged nodes become points,
 * ways with at least two nodes become linestrings, and the areas osmium assembles from
 * closed ways and multipolygon relations become multipolygons. Every call that gets past
 * its early return ends in maybe_flush, whether or not building the feature failed.
 */
module MinjurMp {
  import opened Wrappers
  import opened Osm
  import opened GeoJson
  import opened JsonFeature
  import opened JsonHandler
  import opened Exporter

  /** The collaborators a JSONAreaHandler call relies on. */
  datatype Env = Env(factory: Factory, out: Output)

  /** The constructor: only the JSONHandler part, without a node-list attribute. */
  function NewAreaHandler(errorFile: string, attrPrefix: string, withId: bool): (h: Handler)
    ensures Written(h) == "" && h.errorCount == 0 && h.nodeAttr == ""
    ensures h.errorLog.Some? <==> errorFile != ""
    ensures h.withId == withId
  {
    Create(errorFile, attrPrefix, withId, "")
  }

  /** node(): a tagged node becomes its point, with the id role "n". */
  function OnNode(withId: bool, node: OsmObject): (e: Emission<FeatureSpec>)
    requires node.Node?
    ensures node.meta.tags == [] <==> e.Skipped?
    ensures node.meta.tags != [] && !node.location.Valid() ==> e == Done([], Some(InvalidLocation))
    ensures node.meta.tags != [] && node.location.Valid() ==>
      e == Done([FeatureSpec(FeatureIdFor(withId, "n", node.meta.id), Point(Coordinates(node.location.Lon(), node.location.Lat())), node, [])], None)
  {
    if node.meta.tags == [] then Skipped else PointFeature(withId, node)
  }

  /** way(): a way with at least two nodes becomes a linestring, with the id role "w" and no extra properties. */
  function OnWay(withId: bool, factory: Factory, way: OsmObject): (e: Emission<FeatureSpec>)
    requires way.Way?
    ensures |way.refs| <= 1 <==> e.Skipped?
    ensures e.Done? ==> |e.records| <= 1 && (e.records == [] <==> e.failure.Some?)
    ensures e.Done? ==> forall i :: 0 <= i < |e.records| ==>
      && e.records[i].geometry.LineString?
      && e.records[i].fid == FeatureIdFor(withId, "w", way.meta.id)
      && e.records[i].additions == []
    ensures |way.refs| > 1 ==> var made := factory.linestring(way.refs);
      && (made.Err? ==> e == Done([], Some(made.error)))
      && (made.Ok? ==> e == Done([FeatureSpec(FeatureIdFor(withId, "w", way.meta.id), LineString(made.value), way, [])], None))
  {
    if |way.refs| <= 1 then Skipped
    else OneFeature(withId, "w", way, AsGeometry(factory.linestring(way.refs), (pts: seq<Coordinates>) => LineString(pts)), [])
  }

  /**
   * area(): every area becomes a multipolygon, with the id role "a" and the area's own id
   * (the properties carry the id of the way or relation it came from).
   */
  function OnArea(withId: bool, factory: Factory, area: OsmObject): (e: Emission<FeatureSpec>)
    requires area.Area?
    ensures e.Done? && |e.records| <= 1 && (e.records == [] <==> e.failure.Some?)
    ensures forall i :: 0 <= i < |e.records| ==>
      && e.records[i].geometry.MultiPolygon?
      && e.records[i].fid == FeatureIdFor(withId, "a", area.meta.id)
      && e.records[i].additions == []
    ensures var made := factory.multipolygon(area);
      && (made.Err? ==> e == Done([], Some(made.error)))
      && (made.Ok? ==> e == Done([FeatureSpec(FeatureIdFor(withId, "a", area.meta.id), MultiPolygon(made.value), area, [])], None))
  {
    OneFeature(withId, "a", area, AsGeometry(factory.multipolygon(area), (ps: seq<PolygonRings>) => MultiPolygon(ps)), [])
  }

  /** What one call of this handler decides, whichever kind of object it gets. */
  function OnObject(withId: bool, factory: Factory, o: OsmObject): Emission<FeatureSpec> {
    match o
    case Node(_, _) => OnNode(withId, o)
    case Way(_, _) => OnWay(withId, factory, o)
    case Area(_, _) => OnArea(withId, factory, o)
    case Relation(_) => Skipped
  }

  /** One call of the handler on any object, including the shared buffer and error accounting. */
  function Call(env: Env, h: Handler, o: OsmObject): Handler {
    Handle(h, o, OnObject(h.withId, env.factory, o), env.out)
  }

  /**
   * When building a feature fails, nothing is appended, the error count grows by exactly
   * one and, with an error file, one line naming the object and the error is logged.
   */
  lemma FailureCounted(env: Env, h: Handler, o: OsmObject)
    requires OnObject(h.withId, env.factory, o).Done? && OnObject(h.withId, env.factory, o).failure.Some?
    ensures var e := OnObject(h.withId, env.factory, o);
      var r := Call(env, h, o);
      && Written(r) == Written(h)
      && r.errorCount == h.errorCount + 1
      && (h.errorLog.Some? ==> r.errorLog == Some(h.errorLog.value + ErrorLine(o, e.failure.value)))
  {
    assert OnObject(h.withId, env.factory, o).records == [];
    assert Concat([]) == "";
  }

  /**
   * Every call that is not an early return ends in maybe_flush, failed or not: the output
   * grows only when the buffer with the call's records exceeds the threshold, and then by
   * that whole buffer. An area call never returns early.
   */
  lemma FlushCheckedAfterEveryCall(env: Env, h: Handler, o: OsmObject)
    requires !o.Relation?
    ensures var e := RenderEmission(OnObject(h.withId, env.factory, o), h.names, env.out);
      var r := Call(env, h, o);
      e.Done? ==> var b := h.buffer + Concat(e.records);
        && |r.buffer| <= FlushThreshold
        && (if |b| > FlushThreshold then r.output == h.output + b && r.buffer == "" else r.output == h.output && r.buffer == b)
    ensures o.Area? ==> OnObject(h.withId, env.factory, o).Done?
  {
  }

  /** An untagged node and a way with fewer than two nodes leave the handler exactly as it was. */
  lemma EarlyReturnsChangeNothing(env: Env, h: Handler, o: OsmObject)
    requires (o.Node? && o.meta.tags == []) || (o.Way? && |o.refs| <= 1)
    ensures Call(env, h, o) == h
  {
  }
}

=== FILE: osm.dfy ===
/**
 * The OSM objects the exporters consume, reduced to what the exporters read:
 * metadata, tags, node locations and way node references. The objects themselves
 * are produced by libosmium, which is not part of this model.
 */
module Osm {
  import opened Wrappers

  /** Locations are stored as fixed-point integers in units of 1e-7 degrees. */
  const CoordinatePrecision: int := 10000000

  /** A node location; a location outside the world (or never set) is invalid. */
  datatype Location = Location(x: int, y: int) {
    predicate Valid() {
      && -180 * CoordinatePrecision <= x <= 180 * CoordinatePrecision
      && -90 * CoordinatePrecision <= y <= 90 * CoordinatePrecision
    }

    function Lon(): real {
      x as real / CoordinatePrecision as real
    }

    function Lat(): real {
      y as real / CoordinatePrecision as real
    }
  }

  /** One key/value tag; an object's tags keep their file order. */
  datatype Tag = Tag(key: string, value: string)

  /** Metadata common to every OSM object. */
  datatype Meta = Meta(
    id: int,
    version: int,
    changeset: int,
    uid: int,
    user: string,
    timestamp: int,
    tags: seq<Tag>)

  /** A way's reference to a node, with the location resolved from the location cache. */
  datatype NodeRef = NodeRef(ref: int, location: Location)

  datatype OsmObject =
    | Node(meta: Meta, location: Location)
    | Way(meta: Meta, refs: seq<NodeRef>)
    | Relation(meta: Meta)
    | Area(meta: Meta, fromWay: bool)

  /** A way is closed when its first and last node references name the same node. */
  predicate IsClosed(refs: seq<NodeRef>)
    requires |refs| > 0
  {
    refs[0].ref == refs[|refs| - 1].ref
  }

  /** osmium::item_type_to_char. */
  function TypeChar(o: OsmObject): char {
    match o
    case Node(_, _) => 'n'
    case Way(_, _) => 'w'
    case Relation(_) => 'r'
    case Area(_, _) => 'a'
  }

  /** osmium::item_type_to_name. */
  function TypeName(o: OsmObject): string {
    match o
    case Node(_, _) => "node"
    case Way(_, _) => "way"
    case Relation(_) => "relation"
    case Area(_, _) => "area"
  }

  /** The two per-object failures the exporters recover from. */
  datatype GeomError = GeometryError | InvalidLocation

  /** The name written to the error file for each failure. */
  function ErrorName(e: GeomError): string {
    match e
    case GeometryError => "geometry_error"
    case InvalidLocation => "invalid_location"
  }
}

=== FILE: polygon_rules.dfy ===
/**
 * The tag rules minjur's JSONNoAreaHandler constructor installs to decide whether a closed
 * way is an area. They come in blocks, one per key: first the values that are NOT areas,
 * each as `add(false, key, value)`, then `add(true, key)` for every other value of the key.
 * The filter's default verdict is false.
 */
module PolygonRules {
  import opened Wrappers
  import opened Osm
  import opened TagsFilter

  /** One key's rules: the excluded values, then the key-wide true rule. */
  datatype KeyBlock = KeyBlock(key: string, exceptions: seq<string>)

  /** The constructor's blocks, in declaration order. */
  const PolygonBlocks: seq<KeyBlock> := [
    KeyBlock("aeroway", ["gate", "taxiway"]),
    KeyBlock("amenity", ["atm", "bbq", "bench", "bureau_de_change", "clock", "drinking_water",
                         "grit_bin", "parking_entrance", "post_box", "telephone", "vending_machine",
                         "waste_basket"]),
    KeyBlock("area", ["no"]),
    KeyBlock("area:highway", []),
    KeyBlock("building", ["entrance", "no"]),
    KeyBlock("craft", []),
    KeyBlock("emergency", ["fire_hydrant", "phone"]),
    KeyBlock("golf", ["hole"]),
    KeyBlock("historic", ["boundary_stone"]),
    KeyBlock("junction", ["roundabout"]),
    KeyBlock("landuse", []),
    KeyBlock("leisure", ["picnic_table", "track", "slipway"]),
    KeyBlock("man_made", ["cutline", "embankment", "flagpole", "mast", "petroleum_well", "pipeline",
                          "survey_point"]),
    KeyBlock("military", []),
    KeyBlock("natural", ["coastline", "peak", "saddle", "spring", "tree", "tree_row", "volcano"]),
    KeyBlock("office", []),
    KeyBlock("piste:type", []),
    KeyBlock("place", []),
    KeyBlock("power", ["line", "minor_line", "pole", "tower"]),
    KeyBlock("public_transport", ["stop_position"]),
    KeyBlock("shop", []),
    KeyBlock("tourism", ["viewpoint"]),
    KeyBlock("waterway", ["canal", "ditch", "drain", "river", "stream", "weir"])
  ]

  /** The `add` calls of one block, in order. */
  function BlockRules(b: KeyBlock): seq<Rule> {
    seq(|b.exceptions|, i requires 0 <= i < |b.exceptions| => Rule(false, b.key, Some(b.exceptions[i])))
      + [Rule(true, b.key, None)]
  }

  /** A block's rules: one false rule per excluded value, in order, then the key-wide true rule. */
  lemma BlockRulesShape(b: KeyBlock)
    ensures |BlockRules(b)| == |b.exceptions| + 1
    ensures forall i :: 0 <= i < |b.exceptions| ==> BlockRules(b)[i] == Rule(false, b.key, Some(b.exceptions[i]))
    ensures BlockRules(b)[|b.exceptions|] == Rule(true, b.key, None)
  {
  }

  /** All the `add` calls, block after block. */
  function FlattenBlocks(bs: seq<KeyBlock>): seq<Rule>
    decreases |bs|
  {
    if bs == [] then [] else BlockRules(bs[0]) + FlattenBlocks(bs[1..])
  }

  /** The constructor's `add(false, key, value)` calls for one block's excluded values, in order. */
  function AddExceptions(f: Filter, key: string, values: seq<string>): Filter
    decreases |values|
  {
    if values == [] then f else AddExceptions(Add(f, false, key, Some(values[0])), key, values[1..])
  }

  /** The constructor's `add` calls for a run of blocks, starting from filter f. */
  function AddBlocks(f: Filter, bs: seq<KeyBlock>): Filter
    decreases |bs|
  {
    if bs == [] then f
    else
      var g := AddExceptions(f, bs[0].key, bs[0].exceptions);
      AddBlocks(Add(g, true, bs[0].key, None), bs[1..])
  }

  lemma {:induction false} AddExceptionsAppends(f: Filter, key: string, values: seq<string>)
    ensures AddExceptions(f, key, values)
      == Filter(f.defaultVerdict, f.rules + seq(|values|, i requires 0 <= i < |values| => Rule(false, key, Some(values[i]))))
    decreases |values|
  {
    var excl := seq(|values|, i requires 0 <= i < |values| => Rule(false, key, Some(values[i])));
    if values != [] {
      var g := Add(f, false, key, Some(values[0]));
      assert g.rules == f.rules + [excl[0]];
      AddExceptionsAppends(g, key, values[1..]);
      var rest := seq(|values[1..]|, i requires 0 <= i < |values[1..]| => Rule(false, key, Some(values[1..][i])));
      assert excl == [excl[0]] + rest;
    }
  }

  /** The sequence of `add` calls leaves exactly the flattened rule list, after any earlier rules. */
  lemma {:induction false} AddBlocksAppends(f: Filter, bs: seq<KeyBlock>)
    ensures AddBlocks(f, bs) == Filter(f.defaultVerdict, f.rules + FlattenBlocks(bs))
    decreases |bs|
  {
    if bs != [] {
      var g := AddExceptions(f, bs[0].key, bs[0].exceptions);
      AddExceptionsAppends(f, bs[0].key, bs[0].exceptions);
      var h := Add(g, true, bs[0].key, None);
      assert h.rules == f.rules + BlockRules(bs[0]);
      AddBlocksAppends(h, bs[1..]);
    }
  }

  /**
   * The verdict read off the blocks directly: the first block for the tag's key decides,
   * true unless the value is one of its exceptions; a key without a block is false.
   */
  function BlockVerdict(bs: seq<KeyBlock>, t: Tag): bool
    decreases |bs|
  {
    if bs == [] then false
    else if bs[0].key == t.key then t.value !in bs[0].exceptions
    else BlockVerdict(bs[1..], t)
  }

  /** Within a block for the tag's key, the first-match verdict is "value not excluded". */
  lemma BlockRulesVerdict(d: bool, b: KeyBlock, t: Tag)
    requires b.key == t.key
    ensures !NoRuleMatches(BlockRules(b), t)
    ensures Apply(Filter(d, BlockRules(b)), t) == (t.value !in b.exceptions)
  {
    var rules := BlockRules(b);
    var n := |b.exceptions|;
    BlockRulesShape(b);
    assert Matches(rules[n], t);
    if t.value in b.exceptions {
      var k := FirstIndex(b.exceptions, t.value);
      assert IsFirstMatch(rules, t, k);
    } else {
      assert IsFirstMatch(rules, t, n);
    }
  }

  /** The position of the first occurrence of a value. */
  function FirstIndex(s: seq<string>, v: string): (k: nat)
    requires v in s
    ensures k < |s| && s[k] == v
    ensures forall j :: 0 <= j < k ==> s[j] != v
    decreases |s|
  {
    if s[0] == v then 0 else 1 + FirstIndex(s[1..], v)
  }

  /** A block for another key has no rule matching the tag. */
  lemma BlockRulesMiss(b: KeyBlock, t: Tag)
    requires b.key != t.key
    ensures NoRuleMatches(BlockRules(b), t)
  {
    BlockRulesShape(b);
  }

  /** The flat first-match filter agrees with the block reading, for every tag. */
  lemma {:induction false} FlattenVerdict(bs: seq<KeyBlock>, t: Tag)
    ensures Apply(Filter(false, FlattenBlocks(bs)), t) == BlockVerdict(bs, t)
    decreases |bs|
  {
    if bs == [] {
      assert NoRuleMatches([], t);
    } else if bs[0].key == t.key {
      BlockRulesVerdict(false, bs[0], t);
      FirstMatchWins(false, BlockRules(bs[0]), FlattenBlocks(bs[1..]), t);
    } else {
      BlockRulesMiss(bs[0], t);
      SkipUnmatched(false, BlockRules(bs[0]), FlattenBlocks(bs[1..]), t);
      FlattenVerdict(bs[1..], t);
    }
  }

  /** A filter built by `add` calls, block after block, gives the block reading's verdict on every tag. */
  lemma AddedBlocksVerdict(bs: seq<KeyBlock>, t: Tag)
    ensures Apply(AddBlocks(NewFilter(false), bs), t) == BlockVerdict(bs, t)
  {
    AddBlocksAppends(NewFilter(false), bs);
    assert AddBlocks(NewFilter(false), bs) == Filter(false, FlattenBlocks(bs));
    FlattenVerdict(bs, t);
  }

  /** The flat rule list read as the blocks, for all tags at once. */
  lemma FlattenVerdicts(bs: seq<KeyBlock>)
    ensures forall t :: Apply(Filter(false, FlattenBlocks(bs)), t) == BlockVerdict(bs, t)
  {
    forall t ensures Apply(Filter(false, FlattenBlocks(bs)), t) == BlockVerdict(bs, t) {
      FlattenVerdict(bs, t);
    }
  }

  /** The block for the tag's key decides, when it is the first block with that key. */
  lemma {:induction false} KeyedBlockDecides(bs: seq<KeyBlock>, k: nat, t: Tag)
    requires k < |bs| && bs[k].key == t.key
    requires forall j :: 0 <= j < k ==> bs[j].key != t.key
    ensures BlockVerdict(bs, t) == (t.value !in bs[k].exceptions)
    decreases k
  {
    if k > 0 {
      KeyedBlockDecides(bs[1..], k - 1, t);
    }
  }

  /** A key no block names gets the default verdict, false. */
  lemma {:induction false} UnknownKeyFalse(bs: seq<KeyBlock>, t: Tag)
    requires forall j :: 0 <= j < |bs| ==> bs[j].key != t.key
    ensures !BlockVerdict(bs, t)
    decreases |bs|
  {
    if bs != [] {
      UnknownKeyFalse(bs[1..], t);
    }
  }

  /** Value exclusions come before the key-wide rule: building=no is not an area... */
  lemma BuildingNoIsNotArea()
    ensures !Apply(AddBlocks(NewFilter(false), PolygonBlocks), Tag("building", "no"))
  {
    KeyedBlockDecides(PolygonBlocks, 4, Tag("building", "no"));
    AddedBlocksVerdict(PolygonBlocks, Tag("building", "no"));
  }

  /** ...while any other building value is. */
  lemma BuildingYesIsArea()
    ensures Apply(AddBlocks(NewFilter(false), PolygonBlocks), Tag("building", "yes"))
  {
    assert "yes"[0] !in {'e', 'n'};
    assert "yes" !in PolygonBlocks[4].exceptions;
    KeyedBlockDecides(PolygonBlocks, 4, Tag("building", "yes"));
    AddedBlocksVerdict(PolygonBlocks, Tag("building", "yes"));
  }

  /** A coastline is a line... */
  lemma CoastlineIsNotArea()
    ensures !Apply(AddBlocks(NewFilter(false), PolygonBlocks), Tag("natural", "coastline"))
  {
    assert PolygonBlocks[14].exceptions[0] == "coastline";
    KeyedBlockDecides(PolygonBlocks, 14, Tag("natural", "coastline"));
    AddedBlocksVerdict(PolygonBlocks, Tag("natural", "coastline"));
  }

  /** ...and a wood an area. */
  lemma WoodIsArea()
    ensures Apply(AddBlocks(NewFilter(false), PolygonBlocks), Tag("natural", "wood"))
  {
    assert "wood"[0] !in {'c', 'p', 's', 't', 'v'};
    assert "wood" !in PolygonBlocks[14].exceptions;
    KeyedBlockDecides(PolygonBlocks, 14, Tag("natural", "wood"));
    AddedBlocksVerdict(PolygonBlocks, Tag("natural", "wood"));
  }

  /** area=no is the explicit opt-out. */
  lemma AreaNoIsNotArea()
    ensures !Apply(AddBlocks(NewFilter(false), PolygonBlocks), Tag("area", "no"))
  {
    KeyedBlockDecides(PolygonBlocks, 2, Tag("area", "no"));
    AddedBlocksVerdict(PolygonBlocks, Tag("area", "no"));
  }

  /** highway has no block, so a closed highway stays a line whatever its value. */
  lemma HighwayIsNotArea(value: string)
    ensures !Apply(AddBlocks(NewFilter(false), PolygonBlocks), Tag("highway", value))
  {
    forall j | 0 <= j < |PolygonBlocks|
      ensures PolygonBlocks[j].key != "highway"
    {
      assert |PolygonBlocks[j].key| != 7 || PolygonBlocks[j].key[0] != 'h';
    }
    UnknownKeyFalse(PolygonBlocks, Tag("highway", value));
    AddedBlocksVerdict(PolygonBlocks, Tag("highway", value));
  }
}

=== FILE: tags_filter.dfy ===
/**
 * osmium::tags::KeyValueFilter as the exporters use it: an ordered rule list where
 * the first rule matching a tag gives the verdict and a filter-wide default applies
 * when none matches, and match_any_of over an object's tags.
 */
module TagsFilter {
  import opened Wrappers
  import opened Osm

  /** One `add(verdict, key)` (value None: any value) or `add(verdict, key, value)` rule. */
  datatype Rule = Rule(verdict: bool, key: string, value: Option<string>)

  datatype Filter = Filter(defaultVerdict: bool, rules: seq<Rule>)

  predicate Matches(r: Rule, t: Tag) {
    r.key == t.key && (r.value.None? || r.value.value == t.value)
  }

  /** Rule i is the first rule, in declaration order, that matches t. */
  ghost predicate IsFirstMatch(rules: seq<Rule>, t: Tag, i: int) {
    && 0 <= i < |rules|
    && Matches(rules[i], t)
    && forall j :: 0 <= j < i ==> !Matches(rules[j], t)
  }

  ghost predicate NoRuleMatches(rules: seq<Rule>, t: Tag) {
    forall j :: 0 <= j < |rules| ==> !Matches(rules[j], t)
  }

  /** The filter constructor: no rules, only the default verdict. */
  function NewFilter(defaultVerdict: bool): (f: Filter)
    ensures forall t :: Apply(f, t) == defaultVerdict
  {
    Filter(defaultVerdict, [])
  }

  /** `add`: appends one rule after all earlier ones, so earlier rules keep precedence. */
  function Add(f: Filter, verdict: bool, key: string, value: Option<string>): (g: Filter)
    ensures g.defaultVerdict == f.defaultVerdict
    ensures |g.rules| == |f.rules| + 1 && g.rules[..|f.rules|] == f.rules
    ensures forall t :: !NoRuleMatches(f.rules, t) ==> Apply(g, t) == Apply(f, t)
  {
    var g := Filter(f.defaultVerdict, f.rules + [Rule(verdict, key, value)]);
    forall t | !NoRuleMatches(f.rules, t)
      ensures Apply(g, t) == Apply(f, t)
    {
      FirstMatchWins(f.defaultVerdict, f.rules, [Rule(verdict, key, value)], t);
    }
    g
  }

  /** The scan over the rules from position k on, stopping at the first match. */
  function FirstMatchFrom(rules: seq<Rule>, t: Tag, k: nat): (r: Option<nat>)
    requires k <= |rules|
    ensures r.Some? ==> k <= r.value < |rules| && Matches(rules[r.value], t)
    ensures r.Some? ==> forall j :: k <= j < r.value ==> !Matches(rules[j], t)
    ensures r.None? ==> forall j :: k <= j < |rules| ==> !Matches(rules[j], t)
    decreases |rules| - k
  {
    if k == |rules| then None
    else if Matches(rules[k], t) then Some(k)
    else FirstMatchFrom(rules, t, k + 1)
  }

  /** The filter's verdict on one tag. */
  function Apply(f: Filter, t: Tag): (b: bool)
    ensures b <==> (exists i :: IsFirstMatch(f.rules, t, i) && f.rules[i].verdict)
                   || (NoRuleMatches(f.rules, t) && f.defaultVerdict)
  {
    match FirstMatchFrom(f.rules, t, 0)
    case Some(i) =>
      assert IsFirstMatch(f.rules, t, i);
      assert forall j :: IsFirstMatch(f.rules, t, j) ==> j == i;
      f.rules[i].verdict
    case None => f.defaultVerdict
  }

  /** match_any_of: some tag, taken alone, gets a true verdict. */
  function MatchAnyOf(tags: seq<Tag>, f: Filter): (b: bool)
    ensures b <==> exists i :: 0 <= i < |tags| && Apply(f, tags[i])
    decreases |tags|
  {
    if |tags| == 0 then false
    else if Apply(f, tags[0]) then true
    else
      var rest := MatchAnyOf(tags[1..], f);
      assert forall i :: 1 <= i < |tags| ==> tags[i] == tags[1..][i - 1];
      rest
  }

  /** Once a rule of p matches, rules declared after p cannot change the verdict. */
  lemma FirstMatchWins(d: bool, p: seq<Rule>, q: seq<Rule>, t: Tag)
    requires !NoRuleMatches(p, t)
    ensures Apply(Filter(d, p + q), t) == Apply(Filter(d, p), t)
  {
    var i := FirstMatchFrom(p, t, 0).value;
    assert IsFirstMatch(p, t, i);
    assert IsFirstMatch(p + q, t, i);
  }

  /** Rules of p that do not match are transparent: the verdict comes from what follows. */
  lemma SkipUnmatched(d: bool, p: seq<Rule>, q: seq<Rule>, t: Tag)
    requires NoRuleMatches(p, t)
    ensures Apply(Filter(d, p + q), t) == Apply(Filter(d, q), t)
  {
    match FirstMatchFrom(q, t, 0)
    case Some(i) =>
      assert IsFirstMatch(q, t, i);
      assert IsFirstMatch(p + q, t, |p| + i);
    case None =>
      assert NoRuleMatches(p + q, t);
  }
}

=== FILE: text.dfy ===
/** Character-level helpers for reading back the text the exporters write. */
module Text {
  import opened Wrappers

  /** The position of the first occurrence of c in s. */
  function IndexOf(s: string, c: char): (r: Option<nat>)
    ensures r.Some? ==> r.value < |s| && s[r.value] == c && c !in s[..r.value]
    ensures r.None? ==> c !in s
  {
    if |s| == 0 then None
    else if s[0] == c then Some(0)
    else
      var rest := IndexOf(s[1..], c);
      if rest.None? then None
      else
        assert s[..rest.value + 1] == [s[0]] + s[1..][..rest.value];
        Some(rest.value + 1)
  }

  /** The first-occurrence index is determined by where c first appears. */
  lemma {:induction false} IndexOfFirst(s: string, c: char, k: nat)
    requires k < |s| && s[k] == c && c !in s[..k]
    ensures IndexOf(s, c) == Some(k)
    decreases k
  {
    if k > 0 {
      assert s[0] == s[..k][0];
      assert s[1..][..k - 1] == s[1..k];
      assert forall x :: x in s[1..k] ==> x in s[..k];
      IndexOfFirst(s[1..], c, k - 1);
    }
  }

  /** The pieces of s between occurrences of the separator; always at least one piece. */
  function Split(s: string, sep: char): (pieces: seq<string>)
    ensures |pieces| >= 1
    ensures forall i :: 0 <= i < |pieces| ==> sep !in pieces[i]
    decreases |s|
  {
    match IndexOf(s, sep)
    case None => [s]
    case Some(k) => [s[..k]] + Split(s[k + 1..], sep)
  }

  /** Joining two texts with the separator joins their piece lists. */
  lemma {:induction false} SplitJoin(x: string, y: string, sep: char)
    ensures Split(x + [sep] + y, sep) == Split(x, sep) + Split(y, sep)
    decreases |x|
  {
    var s := x + [sep] + y;
    match IndexOf(x, sep) {
      case None =>
        assert s[..|x|] == x;
        IndexOfFirst(s, sep, |x|);
        assert s[|x| + 1..] == y;
      case Some(k) =>
        assert s[..k] == x[..k];
        IndexOfFirst(s, sep, k);
        assert s[k + 1..] == x[k + 1..] + [sep] + y;
        SplitJoin(x[k + 1..], y, sep);
    }
  }

  /** A text without the separator is a single piece. */
  lemma SplitNoSeparator(s: string, sep: char)
    requires sep !in s
    ensures Split(s, sep) == [s]
  {
  }

  /** The number of occurrences of c in s. */
  function Count(s: string, c: char): nat
    decreases |s|
  {
    if s == "" then 0 else (if s[0] == c then 1 else 0) + Count(s[1..], c)
  }

  lemma {:induction false} CountConcat(a: string, b: string, c: char)
    ensures Count(a + b, c) == Count(a, c) + Count(b, c)
    decreases |a|
  {
    if a != "" {
      assert (a + b)[1..] == a[1..] + b;
      CountConcat(a[1..], b, c);
    } else {
      assert a + b == b;
    }
  }

  lemma {:induction false} CountAbsent(s: string, c: char)
    requires c !in s
    ensures Count(s, c) == 0
    decreases |s|
  {
    if s != "" {
      assert forall x :: x in s[1..] ==> x in s;
      CountAbsent(s[1..], c);
    }
  }
}

=== FILE: tile.dfy ===
/**
 * The slippy-map tile index of a coordinate (latlon2tile in tile.cpp).
 *
 * The floating-point Web-Mercator projection is not modelled: a `Projection` hands over
 * the raw column and row the double arithmetic produces, already truncated to an integer
 * as the conversion to `long long` does. What is modelled is everything latlon2tile does
 * with those raw values: the overrides near the poles, the clamping into the grid and the
 * narrowing to `unsigned int`.
 */
module TileIndex {

  /** 2^k, the `1LL << zoom` grid width. */
  function Pow2(k: nat): (r: nat)
    ensures r >= 1
  {
    if k == 0 then 1 else 2 * Pow2(k - 1)
  }

  lemma {:induction false} Pow2Monotone(a: nat, b: nat)
    requires a <= b
    ensures Pow2(a) <= Pow2(b)
    decreases b
  {
    if a < b {
      Pow2Monotone(a, b - 1);
    }
  }

  lemma {:induction false} Pow2Add(a: nat, b: nat)
    ensures Pow2(a + b) == Pow2(a) * Pow2(b)
    decreases b
  {
    if b > 0 {
      Pow2Add(a, b - 1);
      calc {
        Pow2(a + b);
        2 * Pow2(a + b - 1);
        2 * (Pow2(a) * Pow2(b - 1));
        Pow2(a) * (2 * Pow2(b - 1));
        Pow2(a) * Pow2(b);
      }
    }
  }

  /** Up to zoom 32 the grid width fits the unsigned result range. */
  lemma Pow2Fits(k: nat)
    requires k <= 32
    ensures Pow2(k) <= UnsignedRange
  {
    Pow2Monotone(k, 32);
    assert Pow2(4) == 16;
    Pow2Add(4, 4);
    assert Pow2(8) == 256;
    Pow2Add(8, 8);
    assert Pow2(16) == 65536;
    Pow2Add(16, 16);
    assert Pow2(32) == 65536 * 65536;
  }

  /** The latitude beyond which the row is forced to the polar edge. */
  const PolarLatitude: real := 85.0511

  /** 2^32: the results are returned as `unsigned int`. */
  const UnsignedRange: int := 0x1_0000_0000

  /** The raw, truncated grid column and row the projection gives for a coordinate on an n-wide grid. */
  datatype Projection = Projection(column: (real, int) -> int, row: (real, int) -> int)

  datatype Tile = Tile(x: nat, y: nat)

  /** The four clamping ifs: below 0 becomes 0, at or beyond n becomes n - 1. */
  function Clamp(v: int, n: int): (r: int)
    requires n >= 1
    ensures 0 <= r < n
    ensures 0 <= v < n ==> r == v
    ensures v < 0 ==> r == 0
    ensures v >= n ==> r == n - 1
  {
    if v < 0 then 0 else if v >= n then n - 1 else v
  }

  /** Clamping picks the grid cell nearest to the raw value. */
  lemma ClampNearest(v: int, n: int, w: int)
    requires n >= 1 && 0 <= w < n
    ensures var r := Clamp(v, n);
      (if r <= v then v - r else r - v) <= (if w <= v then v - w else w - v)
  {
  }

  /** Clamping never reverses the order of two raw values. */
  lemma ClampMonotone(u: int, v: int, n: int)
    requires n >= 1 && u <= v
    ensures Clamp(u, n) <= Clamp(v, n)
  {
  }

  /** The row before clamping: the raw projection, overridden at the poles. */
  function RawRow(lat: real, n: int, proj: Projection): (r: int)
    ensures lat >= PolarLatitude ==> r == 0
    ensures lat <= -PolarLatitude ==> r == n - 1
    ensures -PolarLatitude < lat < PolarLatitude ==> r == proj.row(lat, n)
  {
    var y := proj.row(lat, n);
    var y := if lat >= PolarLatitude then 0 else y;
    if lat <= -PolarLatitude then n - 1 else y
  }

  /**
   * latlon2tile: the tile of (lat, lon) at `zoom`. The zoom is a shift amount of a
   * signed 64-bit one, so it lies in 0..62; past zoom 32 the column and row no longer
   * fit the `unsigned int` result and wrap.
   */
  function LatLon2Tile(lat: real, lon: real, zoom: nat, proj: Projection): (t: Tile)
    requires zoom <= 62
    ensures zoom <= 32 ==> t.x < Pow2(zoom) && t.y < Pow2(zoom)
    ensures zoom <= 32 && lat >= PolarLatitude ==> t.y == 0
    ensures zoom <= 32 && lat <= -PolarLatitude ==> t.y == Pow2(zoom) - 1
    ensures zoom <= 32 && 0 <= proj.column(lon, Pow2(zoom)) < Pow2(zoom) ==> t.x == proj.column(lon, Pow2(zoom))
    ensures zoom <= 32 && -PolarLatitude < lat < PolarLatitude && 0 <= proj.row(lat, Pow2(zoom)) < Pow2(zoom)
      ==> t.y == proj.row(lat, Pow2(zoom))
  {
    var n := Pow2(zoom);
    var _ := if zoom <= 32 then Pow2Fits(zoom); 0 else 0;
    var x := Clamp(proj.column(lon, n), n);
    var y := Clamp(RawRow(lat, n, proj), n);
    Tile(x % UnsignedRange, y % UnsignedRange)
  }

  /** The column depends on the longitude only, the row on the latitude only. */
  lemma TileAxesIndependent(lat1: real, lat2: real, lon1: real, lon2: real, zoom: nat, proj: Projection)
    requires zoom <= 62
    ensures LatLon2Tile(lat1, lon1, zoom, proj).x == LatLon2Tile(lat2, lon1, zoom, proj).x
    ensures LatLon2Tile(lat1, lon1, zoom, proj).y == LatLon2Tile(lat1, lon2, zoom, proj).y
  {
  }

  /** With a projection monotone in the longitude, so is the tile column (up to zoom 32). */
  lemma ColumnMonotone(lat: real, lon1: real, lon2: real, zoom: nat, proj: Projection)
    requires zoom <= 32 && lon1 <= lon2
    requires proj.column(lon1, Pow2(zoom)) <= proj.column(lon2, Pow2(zoom))
    ensures LatLon2Tile(lat, lon1, zoom, proj).x <= LatLon2Tile(lat, lon2, zoom, proj).x
  {
    var n := Pow2(zoom);
    Pow2Fits(zoom);
    ClampMonotone(proj.column(lon1, n), proj.column(lon2, n), n);
  }
}

=== FILE: tilelist.dfy ===
/**
 * minjur-generate-tilelist: the set of "dirty" tiles touched by an OSM change file.
 *
 * TileDiffHandler collects the tile of every valid location it can find for the changed
 * nodes and ways, looking each node up in the old location store (the state before the
 * change) and in a temporary store filled from the change file itself, and finally
 * prints the set, one `x y` line per tile, in the set's lexicographic order.
 *
 * A location store is a map from node id to location; a lookup of an id that is not in
 * the map is the `not_found` exception the handler swallows.
 */
module TileList {
  import opened Wrappers
  import opened Osm
  import opened TileIndex
  import opened Decimal

  /** A zoom the grid width `1LL << zoom` is defined for. */
  type Zoom = z: nat | z <= 62

  type LocationStore = map<int, Location>

  /** The handler: how a location maps to its tile at the chosen zoom, and the tiles collected so far. */
  datatype TileDiff = TileDiff(tileOf: Location -> Tile, dirty: set<Tile>)

  /** The handler's constructor: latlon2tile at `zoom`, nothing dirty yet. */
  function NewTileDiff(zoom: Zoom, proj: Projection): (h: TileDiff)
    ensures h.dirty == {}
    ensures forall loc :: h.tileOf(loc) == LatLon2Tile(loc.Lat(), loc.Lon(), zoom, proj)
  {
    TileDiff((loc: Location) => LatLon2Tile(loc.Lat(), loc.Lon(), zoom, proj), {})
  }

  /** The tile a location falls in at the handler's zoom. */
  function TileOf(h: TileDiff, loc: Location): Tile {
    h.tileOf(loc)
  }

  /** add_location: only a valid location marks its tile dirty. */
  function AddLocation(h: TileDiff, loc: Location): (r: TileDiff)
    ensures r.tileOf == h.tileOf
    ensures loc.Valid() ==> r.dirty == h.dirty + {TileOf(h, loc)}
    ensures !loc.Valid() ==> r == h
  {
    if loc.Valid() then h.(dirty := h.dirty + {TileOf(h, loc)}) else h
  }

  /** A lookup in a location store followed by add_location; a missing id adds nothing. */
  function AddStored(h: TileDiff, store: LocationStore, id: int): (r: TileDiff)
    ensures r.tileOf == h.tileOf
    ensures r.dirty == h.dirty + StoredTiles(h, store, {id})
  {
    if id in store then AddLocation(h, store[id]) else h
  }

  /** The tiles of the valid locations a store holds for some ids. */
  function StoredTiles(h: TileDiff, store: LocationStore, ids: set<int>): set<Tile> {
    set id | id in ids && id in store && store[id].Valid() :: TileOf(h, store[id])
  }

  /** The ids a way refers to. */
  function RefIds(refs: seq<NodeRef>): set<int> {
    set i | 0 <= i < |refs| :: refs[i].ref
  }

  /** node(): the node's location before the change, then its location in the change. */
  function OnNode(h: TileDiff, before: LocationStore, id: int, location: Location): (r: TileDiff)
    ensures r.tileOf == h.tileOf
    ensures r.dirty == h.dirty + StoredTiles(h, before, {id}) + (if location.Valid() then {TileOf(h, location)} else {})
  {
    AddLocation(AddStored(h, before, id), location)
  }

  /** A node marks at most two tiles dirty: where it was and where it is now. */
  lemma OnNodeAtMostTwo(h: TileDiff, before: LocationStore, id: int, location: Location)
    ensures |OnNode(h, before, id, location).dirty - h.dirty| <= 2
  {
    var a := StoredTiles(h, before, {id});
    var b: set<Tile> := if location.Valid() then {TileOf(h, location)} else {};
    var r := OnNode(h, before, id, location).dirty;
    assert r - h.dirty <= a + b;
    SingleIdTiles(h, before, id);
    SubsetCard(r - h.dirty, a + b);
  }

  lemma SingleIdTiles(h: TileDiff, store: LocationStore, id: int)
    ensures |StoredTiles(h, store, {id})| <= 1
  {
    if id in store && store[id].Valid() {
      assert StoredTiles(h, store, {id}) == {TileOf(h, store[id])};
    } else {
      assert StoredTiles(h, store, {id}) == {};
    }
  }

  lemma SubsetCard<T>(a: set<T>, b: set<T>)
    requires a <= b
    ensures |a| <= |b|
  {
    if a != b {
      var x :| x in b && x !in a;
      SubsetCard(a, b - {x});
    }
  }

  /** way(): every node reference is looked up in the old store, then in the temporary one. */
  function OnWay(h: TileDiff, before: LocationStore, tmp: LocationStore, refs: seq<NodeRef>): (r: TileDiff)
    ensures r.tileOf == h.tileOf
    ensures h.dirty <= r.dirty
    decreases |refs|
  {
    if refs == [] then h
    else OnWay(AddStored(AddStored(h, before, refs[0].ref), tmp, refs[0].ref), before, tmp, refs[1..])
  }

  /** The loop over a way's references adds exactly the tiles of its stored, valid locations. */
  lemma {:induction false} OnWayTiles(h: TileDiff, before: LocationStore, tmp: LocationStore, refs: seq<NodeRef>)
    ensures OnWay(h, before, tmp, refs).dirty
      == h.dirty + StoredTiles(h, before, RefIds(refs)) + StoredTiles(h, tmp, RefIds(refs))
    decreases |refs|
  {
    if refs == [] {
      assert RefIds(refs) == {};
      assert StoredTiles(h, before, {}) == {};
      assert StoredTiles(h, tmp, {}) == {};
    } else {
      var id := refs[0].ref;
      var rest := RefIds(refs[1..]);
      var h0 := AddStored(h, before, id);
      var h1 := AddStored(h0, tmp, id);
      assert h1.dirty == h.dirty + StoredTiles(h, before, {id}) + StoredTiles(h, tmp, {id});
      assert OnWay(h, before, tmp, refs) == OnWay(h1, before, tmp, refs[1..]);
      OnWayTiles(h1, before, tmp, refs[1..]);
      StoredTilesSameGrid(h, h1, before, rest);
      StoredTilesSameGrid(h, h1, tmp, rest);
      RefIdsCons(refs);
      var oldA, oldB := StoredTiles(h, before, {id}), StoredTiles(h, before, rest);
      var newA, newB := StoredTiles(h, tmp, {id}), StoredTiles(h, tmp, rest);
      StoredTilesUnion(h, before, {id}, rest);
      StoredTilesUnion(h, tmp, {id}, rest);
      SetRearrange(h.dirty, oldA, newA, oldB, newB);
    }
  }

  lemma RefIdsCons(refs: seq<NodeRef>)
    requires refs != []
    ensures RefIds(refs) == {refs[0].ref} + RefIds(refs[1..])
  {
    forall x | x in RefIds(refs) ensures x in {refs[0].ref} + RefIds(refs[1..]) {
      var i :| 0 <= i < |refs| && refs[i].ref == x;
      if i > 0 {
        assert refs[1..][i - 1].ref == x;
      }
    }
    forall x | x in RefIds(refs[1..]) ensures x in RefIds(refs) {
      var i :| 0 <= i < |refs[1..]| && refs[1..][i].ref == x;
      assert refs[i + 1].ref == x;
    }
  }

  lemma SetRearrange<T>(d: set<T>, a: set<T>, b: set<T>, c: set<T>, e: set<T>)
    ensures d + a + b + c + e == d + (a + c) + (b + e)
  {
  }

  lemma StoredTilesUnion(h: TileDiff, store: LocationStore, a: set<int>, b: set<int>)
    ensures StoredTiles(h, store, a + b) == StoredTiles(h, store, a) + StoredTiles(h, store, b)
  {
  }

  lemma StoredTilesSameGrid(h: TileDiff, h': TileDiff, store: LocationStore, ids: set<int>)
    requires h.tileOf == h'.tileOf
    ensures StoredTiles(h, store, ids) == StoredTiles(h', store, ids)
  {
  }

  /**
   * One object of the change stream. The location handler runs first and records a
   * node's new location in the temporary store; ways then see it. Relations add nothing.
   */
  function OnObject(h: TileDiff, before: LocationStore, tmp: LocationStore, o: OsmObject): (r: (TileDiff, LocationStore))
    ensures r.0.tileOf == h.tileOf
    ensures h.dirty <= r.0.dirty
    ensures o.Node? ==> r.1 == tmp[o.meta.id := o.location]
    ensures !o.Node? ==> r.1 == tmp
  {
    match o
    case Node(meta, location) => (OnNode(h, before, meta.id, location), tmp[meta.id := location])
    case Way(meta, refs) => (OnWay(h, before, tmp, refs), tmp)
    case _ => (h, tmp)
  }

  /** The whole change file, in order. */
  function Run(h: TileDiff, before: LocationStore, tmp: LocationStore, objects: seq<OsmObject>): (r: TileDiff)
    ensures r.tileOf == h.tileOf
    decreases |objects|
  {
    if objects == [] then h
    else
      var step := OnObject(h, before, tmp, objects[0]);
      Run(step.0, before, step.1, objects[1..])
  }

  /** The dirty set never loses a tile while the change file is read. */
  lemma {:induction false} RunGrows(h: TileDiff, before: LocationStore, tmp: LocationStore, objects: seq<OsmObject>)
    ensures h.dirty <= Run(h, before, tmp, objects).dirty
    decreases |objects|
  {
    if objects != [] {
      var step := OnObject(h, before, tmp, objects[0]);
      RunGrows(step.0, before, step.1, objects[1..]);
    }
  }

  /** std::set's order on (x, y) pairs. */
  predicate TileLess(a: Tile, b: Tile) {
    a.x < b.x || (a.x == b.x && a.y < b.y)
  }

  predicate StrictlySorted(s: seq<Tile>) {
    forall i, j :: 0 <= i < j < |s| ==> TileLess(s[i], s[j])
  }

  /** One line of dump_tiles. */
  function TileLine(t: Tile): string {
    Show(t.x) + " " + Show(t.y) + "\n"
  }

  function DumpText(s: seq<Tile>): string
    decreases |s|
  {
    if s == [] then "" else TileLine(s[0]) + DumpText(s[1..])
  }

  lemma {:induction false} DumpTextSnoc(s: seq<Tile>, t: Tile)
    ensures DumpText(s + [t]) == DumpText(s) + TileLine(t)
    decreases |s|
  {
    if s == [] {
      assert [t][1..] == [];
    } else {
      assert (s + [t])[1..] == s[1..] + [t];
      DumpTextSnoc(s[1..], t);
    }
  }

  lemma MinimumExists(s: set<Tile>)
    requires s != {}
    ensures exists m :: m in s && forall u :: u in s && u != m ==> TileLess(m, u)
  {
    var x :| x in s;
    if s - {x} != {} {
      MinimumExists(s - {x});
      var m :| m in s - {x} && forall u :: u in s - {x} && u != m ==> TileLess(m, u);
      if TileLess(x, m) {
        forall u | u in s && u != x
          ensures TileLess(x, u)
        {
          if u != m {
            assert u in s - {x};
          }
        }
      } else {
        assert TileLess(m, x);
        forall u | u in s && u != m
          ensures TileLess(m, u)
        {
          if u != x {
            assert u in s - {x};
          }
        }
      }
    } else {
      forall u | u in s
        ensures u == x
      {
        assert u !in s - {x};
      }
    }
  }

  /**
   * Part way through dump_tiles: `sorted` is an ascending listing of the tiles already
   * written, all below the tiles still to come, and together the two are the dirty set.
   */
  ghost predicate DumpProgress(dirty: set<Tile>, sorted: seq<Tile>, rest: set<Tile>) {
    && (forall t :: t in dirty <==> t in sorted || t in rest)
    && (forall t :: t in sorted ==> t !in rest)
    && StrictlySorted(sorted)
    && (forall i, t :: 0 <= i < |sorted| && t in rest ==> TileLess(sorted[i], t))
    && |sorted| + |rest| == |dirty|
  }

  /** Writing the least remaining tile next keeps the listing ascending and complete. */
  lemma DumpProgressStep(dirty: set<Tile>, sorted: seq<Tile>, rest: set<Tile>, m: Tile)
    requires DumpProgress(dirty, sorted, rest)
    requires m in rest && forall u :: u in rest && u != m ==> TileLess(m, u)
    ensures DumpProgress(dirty, sorted + [m], rest - {m})
  {
    var s := sorted + [m];
    assert forall i :: 0 <= i < |sorted| ==> s[i] == sorted[i];
    assert forall t :: t in s <==> t in sorted || t == m;
    assert |rest - {m}| == |rest| - 1;
  }

  /** dump_tiles: every dirty tile once, in ascending order, one `x y` line each. */
  method DumpTiles(dirty: set<Tile>) returns (sorted: seq<Tile>, text: string)
    ensures StrictlySorted(sorted)
    ensures forall t :: t in dirty <==> t in sorted
    ensures |sorted| == |dirty|
    ensures text == DumpText(sorted)
  {
    sorted := [];
    text := "";
    var rest := dirty;
    while rest != {}
      invariant DumpProgress(dirty, sorted, rest)
      invariant text == DumpText(sorted)
      decreases |rest|
    {
      MinimumExists(rest);
      var m :| m in rest && forall u :: u in rest && u != m ==> TileLess(m, u);
      DumpProgressStep(dirty, sorted, rest, m);
      DumpTextSnoc(sorted, m);
      sorted := sorted + [m];
      text := text + TileLine(m);
      rest := rest - {m};
    }
  }

  /** The set of tiles a listing holds. */
  function Elements(s: seq<Tile>): set<Tile> {
    set i | 0 <= i < |s| :: s[i]
  }

  /** The head of an ascending listing is below every other element of it. */
  lemma HeadIsLeast(s: seq<Tile>, t: Tile)
    requires StrictlySorted(s) && t in s
    ensures s[0] == t || TileLess(s[0], t)
  {
    var i :| 0 <= i < |s| && s[i] == t;
    if i > 0 {
      assert TileLess(s[0], s[i]);
    }
  }

  /** An ascending listing repeats nothing. */
  lemma {:induction false} SortedCard(s: seq<Tile>)
    requires StrictlySorted(s)
    ensures |Elements(s)| == |s|
    decreases |s|
  {
    if s != [] {
      SortedCard(s[1..]);
      assert Elements(s) == {s[0]} + Elements(s[1..]) by {
        forall t | t in Elements(s) ensures t in {s[0]} + Elements(s[1..]) {
          var i :| 0 <= i < |s| && s[i] == t;
          if i > 0 {
            assert s[1..][i - 1] == t;
          }
        }
        forall t | t in Elements(s[1..]) ensures t in Elements(s) {
          var i :| 0 <= i < |s[1..]| && s[1..][i] == t;
          assert s[i + 1] == t;
        }
      }
      forall i | 0 <= i < |s[1..]|
        ensures s[1..][i] != s[0]
      {
        assert TileLess(s[0], s[i + 1]);
      }
    } else {
      assert Elements(s) == {};
    }
  }

  /** A finite set has only one strictly ascending listing, so the dump is determined by the set. */
  lemma {:induction false} SortedListingUnique(a: seq<Tile>, b: seq<Tile>)
    requires StrictlySorted(a) && StrictlySorted(b)
    requires forall t :: t in a <==> t in b
    ensures a == b
    decreases |a|
  {
    SortedCard(a);
    SortedCard(b);
    assert Elements(a) == Elements(b) by {
      forall t | t in Elements(a) ensures t in Elements(b) {
        var i :| 0 <= i < |a| && a[i] == t;
        assert t in b;
      }
      forall t | t in Elements(b) ensures t in Elements(a) {
        var i :| 0 <= i < |b| && b[i] == t;
        assert t in a;
      }
    }
    if |a| > 0 {
      HeadIsLeast(b, a[0]);
      HeadIsLeast(a, b[0]);
      forall t ensures t in a[1..] <==> t in b[1..] {
        if t in a[1..] {
          var i :| 1 <= i < |a| && a[i] == t;
          assert TileLess(a[0], a[i]);
          assert t in b;
          HeadIsLeast(b, t);
        }
        if t in b[1..] {
          var i :| 1 <= i < |b| && b[i] == t;
          assert TileLess(b[0], b[i]);
          assert t in a;
          HeadIsLeast(a, t);
        }
      }
      SortedListingUnique(a[1..], b[1..]);
      assert a == [a[0]] + a[1..];
      assert b == [b[0]] + b[1..];
    }
  }
}

=== FILE: wrappers.dfy ===
/** Failure-carrying result types shared by the model. */
module Wrappers {

  /** A value that may be absent. */
  datatype Option<+T> = None | Some(value: T)

  /** The outcome of a step that can fail with an error of type E, standing in for a C++ exception. */
  datatype Result<+R, +E> = Ok(value: R) | Err(error: E)
}
